=== FILE: README.md ===
# celestia-node core fragments in Dafny

This project models a set of self-contained pieces of celestia-node, the Go
implementation of Celestia's bridge, full and light nodes:

- **wasmfs**: the file system used by the browser build. Files are byte strings
  in one IndexedDB object store, keyed by file name.
- **keystores**: the two private-key stores, one in memory and one with a file
  per key.
- **inverted index**: the index of the square store from a block's multihash
  to the shard that holds it.
- **light EDS**: reading an extended data square (EDS) back from a CAR file,
  and the parameters of the square store.
- **namespace retrieval**: reading the shares of one namespace from the local
  store. A corrupt shard is removed.
- **p2p helpers**: the listen and announce address lists, the connection
  manager's default watermarks, the light node's getter cascade, and the
  bootstrapper's WebTransport address test.
- **peer metrics**: the validation observer and the pool-status diagram of
  the peer manager's no-metrics build.
- **keyring**: the first-run creation of the default account key.
- **jsnode**: the bootstrap-address parsing of the browser node.

Every Go operation is a side-effect-free Dafny function or method from the old
state to the new state and Go's results. A Go panic is an `Err`. Library computations are
function-valued parameters:

- base32 and JSON
- path joining
- multiaddr parsing
- erasure coding and NMT roots
- the CAR decoder
- mnemonic key generation
- the pubsub validator

Failures of external storage that the modelled code handles are explicit
inputs of each call, such as a failing Stat or Remove in the file keystore, or
a failing put, commit or get in the inverted index. The few that are not are
named under "Left out".

One Dafny module per source file. The shared `Option`, `Result`, `Outcome`,
`byte`, `Filter` and `NoDuplicates` are in module `Common`. `Multiaddr` holds
the parsed-address type and `ParseEach`. `GoStrings` holds Go's `strings.Split`
and `strings.TrimSpace`.

## Model

| member | source | states |
|---|---|---|
| WasmFs.OpenFile | libs/wasmfs/wasmfs.go:65-114 | An existing name with O_EXCL fails with ErrExist. A missing name without O_CREATE fails with ErrNotExist. The handle opens exactly when neither applies. Its position is the file length under O_APPEND, else 0, and it is never read-only. Only O_TRUNC together with a write mode empties the file; nothing else changes the store. |
| WasmFs.Create | libs/wasmfs/wasmfs.go:49-51 | Always succeeds, sets the file to empty contents and returns a fresh handle at position 0. |
| WasmFs.Open | libs/wasmfs/wasmfs.go:61-63 | Succeeds exactly for an existing name, otherwise ErrNotExist, and never changes the store. The handle is not read-only, although it was opened with O_RDONLY. |
| WasmFs.Remove | libs/wasmfs/wasmfs.go:116-129 | The name is gone afterwards, also when it was missing before. Every other name keeps both its presence and its contents. |
| WasmFs.RemoveUndoesCreate | libs/wasmfs/wasmfs.go:116-129 | Removing a file that Create just made restores the store. |
| WasmFs.RemoveKeepsOtherFiles | libs/wasmfs/wasmfs.go:116-129 | After Remove, every other name, including an empty file, opens exactly as before. |
| WasmFs.Mkdir | libs/wasmfs/wasmfs.go:53-59 | Mkdir and MkdirAll succeed and change nothing, because keys carry the whole path. |
| WasmFs.Rename | libs/wasmfs/wasmfs.go:135-157 | Rename, Chmod, Chown and Chtimes fail with EPERM and leave the store unchanged. |
| WasmFs.BaseName | libs/wasmfs/wasmfs.go:139-141 | The name the in-memory file info reports: the suffix of the path after its last '/', which itself holds no '/'. |
| WasmFs.BaseNameExamples | libs/wasmfs/wasmfs.go:139-141 | A name without '/' is its own base name, and "keys/" followed by such a name reports just the name. |
| WasmFs.StatName | libs/wasmfs/wasmfs.go:139-141 | Stat by name reports the base name of the path with size 0 and never an error, whatever the store holds. |
| WasmFs.Close | libs/wasmfs/wasmfs.go:168-171 | Marks the handle closed and succeeds, also on a handle that is already closed. |
| WasmFs.Stat | libs/wasmfs/wasmfs.go:291-300 | Stat on a handle reports the handle's name and the current stored length. |
| WasmFs.Read | libs/wasmfs/wasmfs.go:187-211 | The errors: closed; EOF at the end with a non-empty buffer; unexpected EOF past the end; a panic below 0. It succeeds exactly when none of these applies. On success it copies min(\|b\|, remaining) bytes from the position into the prefix of b, keeps the rest of b, and advances the position by that count. |
| WasmFs.Write | libs/wasmfs/wasmfs.go:213-244 | Fails exactly on closed handles, read-only handles and negative positions, leaving the store unchanged. On success the file holds b at the position, the old prefix, zeros in any gap past the old end, and the old tail after b. No other file appears, disappears or changes, n is \|b\|, and the handle's position does not move. |
| WasmFs.ReadAt | libs/wasmfs/wasmfs.go:250-253 | Equals Read after moving the position to the offset. The moved position stays on the handle even when the read fails. |
| WasmFs.WriteAt | libs/wasmfs/wasmfs.go:274-277 | Equals Write after moving the position to the offset, and the handle keeps that offset. |
| WasmFs.Seek | libs/wasmfs/wasmfs.go:255-272 | A closed handle fails. Otherwise the new position is the offset from the start, the current position or the end, or unchanged for an unknown whence, and it is returned. |
| WasmFs.Truncate | libs/wasmfs/wasmfs.go:306-326 | Fails on a closed handle or a negative size, leaving the store unchanged. Otherwise the contents have exactly the given size, the old prefix is kept, zeros fill any extension, and no other file appears, disappears or changes. |
| WasmFs.OpenedForReadingStillWrites | libs/wasmfs/wasmfs.go:61-80 | Because O_RDONLY is 0, a handle from Open is never read-only and Write through it succeeds. |
| WasmFs.ClosedHandleRefusesUse | libs/wasmfs/wasmfs.go:168-171 | After Close, Read, Write, Seek and Truncate all fail with ErrFileClosed and leave the store alone. Stat still answers as before. |
| WasmFs.StatByNameIgnoresContents | libs/wasmfs/wasmfs.go:139-141 | For a non-empty file, Stat by name reports size 0 while Stat on a handle reports the real length. |
| WasmFs.ReadInsideFileSucceeds | libs/wasmfs/wasmfs.go:199-210 | An open handle positioned inside a file reads min(\|b\|, remaining) bytes instead of reporting EOF. |
| WasmFs.SeekThenReadIsReadAt | libs/wasmfs/wasmfs.go:250-272 | On an open handle, Seek(off, SeekStart) returns off, and reading afterwards gives exactly what ReadAt at off gives. |
| WasmFs.SeekEndThenWriteAppends | libs/wasmfs/wasmfs.go:213-272 | On a writable open handle, Seek(0, SeekEnd) followed by Write leaves the old contents followed by the written bytes. |
| WasmFs.CreateWriteReadRoundTrip | libs/wasmfs/wasmfs.go:213-253 | Create, then WriteAt(b, 0), then ReadAt of \|b\| bytes at 0 returns exactly b and leaves the position at \|b\|. |
| WasmFs.WritePastEndReadsZeros | libs/wasmfs/wasmfs.go:226-233 | A write past the end fills the gap with zeros, and a later read of the gap returns them. |
| WasmFs.TruncateToLengthKeepsContents | libs/wasmfs/wasmfs.go:318-324 | Truncating to the current length succeeds and leaves the contents unchanged. |
| WasmFs.AppendTruncLeavesPositionPastEnd | libs/wasmfs/wasmfs.go:99-112 | O_APPEND with O_TRUNC seeks to the old end before emptying the file, so the handle's position lies past the new end. |
| WasmFs.ConsecutiveWritesOverwrite | libs/wasmfs/wasmfs.go:213-244 | As written, writing [1] then [2] through one fresh handle leaves [2]. With the advancing write it leaves [1, 2]. |
| WasmFs.WriteAdvancing | libs/wasmfs/wasmfs.go:213-244 | Same store effect and count as Write. On success the position also moves past the written bytes; on failure the handle is unchanged. |
| WasmFs.ConsecutiveWritesConcatenate | libs/wasmfs/wasmfs.go:213-244 | With the advancing write, two consecutive writes leave b1 + b2 at the starting position. |
| MapKeystore.Put | libs/keystore/map_keystore.go:26-37 | An existing name is refused and nothing changes. A new name is stored with its key. In both cases the name set grows by exactly that name. |
| MapKeystore.Get | libs/keystore/map_keystore.go:39-49 | Succeeds exactly when the name is stored, and returns its key. Otherwise the error wraps ErrNotFound and names the key. |
| MapKeystore.Delete | libs/keystore/map_keystore.go:51-62 | Removes exactly that name and keeps every other entry. A missing name fails without changes, with an error that does not wrap ErrNotFound. |
| MapKeystore.List | libs/keystore/map_keystore.go:64-74 | Lists every stored name exactly once, and nothing else. |
| MapKeystore.PutThenGet | libs/keystore/map_keystore.go:26-49 | A Put on a fresh name followed by Get returns the key. |
| MapKeystore.OtherNamesUnaffected | libs/keystore/map_keystore.go:26-62 | Put and Delete of one name do not change Get of any other name. |
| MapKeystore.PutThenDeleteRestores | libs/keystore/map_keystore.go:26-62 | Deleting a freshly put name restores the original map. |
| MapKeystore.PutGetListDeleteScenario | libs/keystore/map_keystore_test.go:13-32 | The scenario of the keystore unit test: Put "test", Get returns the key, List shows ["test"], and after Delete, List shows nothing. |
| FsKeystore.CheckPerms | libs/keystore/fs_keystore.go:158-163 | A failure carries the offending mode. |
| FsKeystore.CheckPermsIffOwnerOnly | libs/keystore/fs_keystore.go:158-163 | The check passes exactly when none of the six group and other permission bits is set. |
| FsKeystore.TypeBits | libs/keystore/fs_keystore.go:136-138 | The type bits of a mode carry no permission bits, so they always pass the check. |
| FsKeystore.Stat | libs/keystore/fs_keystore.go:74-81 | Stat finds a file, reports it missing, or fails, exactly according to the file map and the set of faulty paths. |
| FsKeystore.Put | libs/keystore/fs_keystore.go:41-69 | An existing file or a Stat failure refuses the Put with no change. Otherwise the JSON of the key is written with mode 0600, which passes the permission check. |
| FsKeystore.Get | libs/keystore/fs_keystore.go:71-103 | A missing file gives the ErrNotFound error, and only it does. Mode bits for group or other are refused before reading. For an owner-only file, Get succeeds exactly when its bytes decode, returns the decoded key, and otherwise reports the unmarshal failure. |
| FsKeystore.Delete | libs/keystore/fs_keystore.go:105-120 | Succeeds exactly for an existing file whose Remove does not fail, and then removes only that path. A missing file, a Stat failure and a Remove failure each fail with their own error, leave the files unchanged, and none of them wraps ErrNotFound. |
| FsKeystore.ListEntries | libs/keystore/fs_keystore.go:123-144 | Succeeds exactly when every entry name decodes from base32, and returns the decoded names in order. Otherwise it reports the first undecodable entry. |
| FsKeystore.List | libs/keystore/fs_keystore.go:123-128 | A directory-read error is passed through; otherwise the entries are decoded. |
| FsKeystore.PutThenGet | libs/keystore/fs_keystore.go:41-103 | Put to a free path followed by Get returns the key, when JSON decoding inverts encoding. |
| FsKeystore.DeleteThenGetNotFound | libs/keystore/fs_keystore.go:71-120 | After a successful Delete, Get reports ErrNotFound. |
| FsKeystore.FailedDeleteKeepsKey | libs/keystore/fs_keystore.go:115-118 | A Delete whose Remove fails reports the delete failure, and Get answers exactly as before. |
| FsKeystore.ListIgnoresPermissionBits | libs/keystore/fs_keystore.go:133-140 | A key file with mode 0644 is listed without complaint, although Get refuses it. |
| InvertedIndex.StageBatch | share/eds/inverted_index.go:38-47 | Succeeds exactly when no put fails. The staged keys are exactly the multihashes, all mapped to the shard. A failure names the first failing multihash. |
| InvertedIndex.AddMultihashesForShard | share/eds/inverted_index.go:25-53 | Succeeds exactly when batch creation, every put and the commit succeed. A failure before the commit leaves the index unchanged. A failed commit leaves each multihash on its old shard or, if the commit wrote it, on the new one. Success maps every multihash to the shard, keeps all other lookups, and adds exactly those keys. |
| InvertedIndex.GetShardsForMultihash | share/eds/inverted_index.go:55-63 | Fails exactly for an unindexed multihash or a failing datastore Get, and every failure is ErrNotFoundInIndex joined with its cause. Otherwise it returns the one recorded shard. |
| InvertedIndex.AddThenGet | share/eds/inverted_index.go:25-63 | After a successful add, every added multihash resolves to the new shard. |
| InvertedIndex.LastWriterWins | share/eds/inverted_index.go:25-63 | A multihash added for two shards resolves to the shard added second. |
| InvertedIndex.FailedAddInvisible | share/eds/inverted_index.go:25-63 | A failed add changes no lookup of a multihash outside the call, and a batch or put failure changes no lookup at all, whether or not the lookup's own Get fails. |
| InvertedIndex.FailedCommitOldOrNew | share/eds/inverted_index.go:49-51 | After a failed commit, each multihash of the call resolves to its previous shard or to the new one. |
| InvertedIndex.RetryAfterFailedCommit | share/eds/inverted_index.go:25-53 | A successful retry after a partly written commit leaves the same index as an add that succeeded the first time. |
| LightEds.SharesOf | share/lighteds/eds.go:39-47 | One share per block: the block's data with the namespace prefix cut off. |
| LightEds.ReadEDS | share/lighteds/eds.go:22-77 | A bad header fails before any block is read. Otherwise exactly min(blocks, w*w) blocks are consumed, and a short stream fails at the first missing index. The square is returned only when it was computed from the first w*w shares and its data root equals the expected root. Otherwise each failing stage reports its own error. |
| LightEds.Validate | share/lighteds/eds.go:101-114 | Passes exactly when the GC interval is not negative and both cache sizes are positive. Otherwise it reports the first violated rule. |
| LightEds.DefaultParameters | share/lighteds/eds.go:93-99 | The defaults are GC off, 10 recent blocks and 128 blockstore accessors, and they pass Validate. |
| NamespaceRetrieval.RetrieveNamespaceFromStore | share/eds/utils.go:59-105 | An invalid namespace fails before the store is touched. A missing shard becomes ErrNotFound. The blockstore is opened exactly when the namespace is valid, the shard exists and opening does not fail; it is then opened once and closed exactly once, and last. A corrupt shard is removed between the open and the close. A missing node removes the shard and reports ErrNotFound. Success returns the collected shares, and other failures pass through. |
| NamespaceRetrieval.NotFoundIffAbsentOrCorrupt | share/eds/utils.go:59-105 | The caller sees ErrNotFound exactly when the shard is absent or turned out to be corrupt. |
| NamespaceRetrieval.CorruptShardIsNotServedAgain | share/eds/utils.go:86-99 | After a corrupt shard is removed, the next retrieval of that root reports ErrNotFound without opening anything. |
| Common.Filter | nodebuilder/p2p/addrs.go:16-31 | An element is kept exactly when it is in the input and passes the test; nothing is added. |
| Common.FilterCounts | nodebuilder/p2p/addrs.go:16-31 | A kept element occurs as often as in the input; a rejected one does not occur. |
| Common.FilterAppend | nodebuilder/p2p/addrs.go:16-31 | Filtering a concatenation filters each part and concatenates, so the input order is kept. |
| Common.FilterSingleton | nodebuilder/p2p/addrs.go:16-31 | One element is kept whole when it passes the test and dropped otherwise. |
| Multiaddr.ParseEach | nodebuilder/p2p/addrs.go:43-49 | Succeeds exactly when every string parses, and returns the parsed addresses in order. Otherwise it reports the first string that does not parse. |
| Addrs.ListenAddrs | nodebuilder/p2p/addrs.go:13-37 | Fails exactly when some listen address does not parse, and reports the first one. With QUIC enabled the result is the parsed list. Without it, the result is the parsed list filtered in order, keeping exactly the addresses that use neither QUIC nor WebTransport. |
| Addrs.Listen | nodebuilder/p2p/addrs.go:13-37 | The loop computes the reference ListenAddrs. |
| Addrs.MakeAddrsFactory | nodebuilder/p2p/addrs.go:40-60 | Succeeds exactly when both lists parse, and an announce error is reported first. On success it keeps the parsed announce list and exactly the byte strings of the parsed no-announce addresses. |
| Addrs.Announced | nodebuilder/p2p/addrs.go:62-75 | Starts with every announce address, in order. Then come the listen addresses filtered in order by the no-announce test, so a listen address appears there exactly when its bytes are not marked no-announce. |
| Addrs.AnnouncedAppend | nodebuilder/p2p/addrs.go:62-75 | Announcing a concatenation of listen lists announces the first, then what survives of the second, so order and repetition are kept. |
| Addrs.NothingSilencedKeepsListen | nodebuilder/p2p/addrs.go:62-75 | With nothing marked no-announce, the result is the announce list followed by the listen list exactly as given. |
| Addrs.AnnounceWinsOverNoAnnounce | nodebuilder/p2p/addrs.go:62-75 | An announce address is announced even when it is also no-announce, while a listen address with the same bytes is dropped. |
| Bootstrapper.IsWebtransportPeer | cmd/bootstrapper/main.go:113-135 | True exactly when the protocols include IPv4, UDP, WebTransport and a certificate hash. |
| Bootstrapper.OnlyTheProtocolSetMatters | cmd/bootstrapper/main.go:113-135 | The order and repetition of protocols do not affect the test. |
| Bootstrapper.ExtendingKeepsWebtransport | cmd/bootstrapper/main.go:113-135 | Adding protocols on either side keeps an address selected. |
| Bootstrapper.NoCerthashNotSelected | cmd/bootstrapper/main.go:113-135 | An IPv4/UDP/QUIC/WebTransport address without a certificate hash is not selected. |
| PeerMetrics.ResultLabel | share/p2p/peers/no_metrics.go:21-32 | Maps accept, reject and ignore to their own labels, each exactly, and every other value to "unknown". |
| PeerMetrics.KnownLabelsDistinct | share/p2p/peers/no_metrics.go:21-32 | Two verdicts with the same known label are equal. |
| PeerMetrics.Observe | share/p2p/peers/no_metrics.go:17-39 | The observer returns the validator's verdict unchanged. Its label is "unknown" exactly for verdicts outside the three known ones. |
| PeerMetrics.ObserverIsTransparent | share/p2p/peers/no_metrics.go:17-39 | Two validators that agree give observers that agree. |
| PeerMetrics.StatusLabelsDistinct | share/p2p/peers/no_metrics.go:83-86 | No two pool statuses share a label. |
| PeerMetrics.Successors | share/p2p/peers/no_metrics.go:82-92 | The next statuses are exactly the diagram's edges. |
| PeerMetrics.FinalAndInitialStatuses | share/p2p/peers/no_metrics.go:82-92 | Synced and blacklisted are final, and no edge leads back to created. |
| PeerMetrics.PathDeepens | share/p2p/peers/no_metrics.go:82-92 | Each step along a path goes one level deeper in the diagram. |
| PeerMetrics.PathsAreShort | share/p2p/peers/no_metrics.go:82-92 | The diagram is acyclic: no path is longer than three statuses. |
| PeerMetrics.SyncedOnlyThroughValidated | share/p2p/peers/no_metrics.go:82-92 | The only way from created to synced is through validated, never through blacklisted. |
| ConnManager.DefaultConnManagerConfig | nodebuilder/p2p/misc.go:28-45 | Light nodes get 50/100 with a one-minute grace period. Bridge and full nodes get 800/1000 with one minute. Any other type panics. |
| ConnManager.DefaultConnManagerConfigWasm | nodebuilder/p2p/misc_wasm.go:11-22 | Only light nodes are accepted, with 1/10 and one minute. Anything else panics. |
| ConnManager.DefaultsWellFormed | nodebuilder/p2p/misc.go:28-45 | Every configuration either table gives has 0 < low < high and a positive grace period. |
| ConnManager.WasmRefinesNative | nodebuilder/p2p/misc_wasm.go:11-22 | A type accepted by the browser table is accepted natively with the same grace period. Its browser high watermark does not exceed the native low one. |
| LightGetter.LightGetter | nodebuilder/share/constructors.go:53-64 | The IPLD getter is always last. The share-exchange getter is present exactly when enabled, and then it comes first. There are no duplicates. |
| LightGetter.ShareExchangeOnlyPrepends | nodebuilder/share/constructors.go:58-63 | Enabling share exchange only puts its getter in front of the cascade. |
| Keyring.GenerateKeys | nodebuilder/keyring.go:18-47 | A listing error is returned with no change, and a non-empty ring is left alone. An empty ring gets exactly one record, the default account "my_celes_key", unless generation fails. An address failure is reported, but the key stays. |
| Keyring.GenerateKeysIdempotent | nodebuilder/keyring.go:18-40 | Once a key exists, another call changes nothing and succeeds. |
| Keyring.GenerateKeysOnlyAdds | nodebuilder/keyring.go:18-40 | No call removes or replaces an existing record. |
| GoStrings.Split | libs/jsnode/node.go:34 | Gives at least one piece, and no piece contains the separator. |
| GoStrings.JoinSplit | libs/jsnode/node.go:34 | Joining the pieces of Split with the separator gives back the input. |
| GoStrings.SplitJoin | libs/jsnode/node.go:34 | Splitting a join of separator-free pieces gives back the pieces. |
| GoStrings.TrimSpace | libs/jsnode/node.go:36 | The result is no longer than the input and neither starts nor ends with white space. |
| GoStrings.TrimSpaceKeepsTheMiddle | libs/jsnode/node.go:36 | The result is a contiguous slice of the input, and everything before and after it is white space. |
| GoStrings.BlankIffAllSpace | libs/jsnode/node.go:36-37 | A piece trims to nothing exactly when it is all white space. |
| GoStrings.TrimSpaceIdempotent | libs/jsnode/node.go:36 | Trimming twice gives the same as trimming once. |
| GoStrings.TrimmedIsFixed | libs/jsnode/node.go:36 | A string that neither starts nor ends with white space trims to itself. |
| JsNode.Cleaned | libs/jsnode/node.go:34-38 | Keeps no more entries than pieces, and no empty ones. |
| JsNode.CleanedKeepsEveryAddress | libs/jsnode/node.go:34-38 | Every piece that is not blank after trimming appears in the result, trimmed. |
| JsNode.CleanedIsFilter | libs/jsnode/node.go:34-38 | The cleaned addresses are the trimmed pieces filtered in order by the non-blank test: each entry is a trimmed piece, in input order, as often as it occurs. |
| JsNode.ConfigAsWritten | libs/jsnode/node.go:34-41 | The bootstrap addresses are the defaults followed by the added addresses. The trusted peers are the defaults when nothing is added. Otherwise they are the new bootstrap list with the last address appended again. |
| JsNode.ParseBootstrapAddresses | libs/jsnode/node.go:31-45 | The loop leaves the as-written configuration of the cleaned input, with the defaults followed by the cleaned addresses as bootstrap addresses. |
| JsNode.TrustedPeersRepeatLastAddress | libs/jsnode/node.go:39 | As written, once any address is given, the trusted peers contain a duplicate. |
| JsNode.AddedOfOneAddress | libs/jsnode/node.go:34-38 | An input holding one trimmed address contributes exactly that address. |
| JsNode.OneAddressTrustedTwice | libs/jsnode/node.go:39 | As written, one address gives trusted peers equal to the default bootstrap addresses followed by that address twice. |
| JsNode.ConfigCorrected | libs/jsnode/node.go:37-40 | As intended, both lists are their defaults followed by the added addresses. |
| JsNode.CorrectedTrustsEachAddressOnce | libs/jsnode/node.go:37-40 | As intended, distinct new addresses that were not already trusted leave the trusted peers free of duplicates. |

## Left out

- IndexedDB failures in wasmfs (`getBytes` and `Put` errors) are not modelled: the object store is a total map.
- WasmFs.Read: positions are unbounded integers, so int64 overflow of the position is not modelled.
- WasmFs.Write: positions are unbounded integers, so int64 overflow of the position is not modelled.
- WasmFs.Seek: the new position is an unbounded integer, so the int64 wrap-around of `atomic.AddInt64` and of `len(data) + offset` is not modelled.
- wasmfs `Name`, `Sync`, `Readdir`, `Readdirnames` and `WriteString` are left out. They are constants, or they refuse with EPERM, or they wrap Write.
- wasmfs `RemoveAll` is an alias of `Remove` and is not modelled separately.
- The mutexes of wasmfs and both keystores are not modelled. Each operation is one atomic step.
- FsKeystore.Put: the extra `os.WriteFile` call (fs_keystore.go:56) is left out because it bypasses the afero file system. Open and write failures of the key file are left out too.
- FsKeystore.Get: read failures of an existing key file are not modelled separately from decoding failures.
- The directory-creation and umask handling of the file keystore's constructor is left out.
- InvertedIndex.StageBatch: a failing put is given as a set of multihashes, so a failure of one occurrence of a repeated multihash but not another cannot be expressed.
- InvertedIndex.AddMultihashesForShard: which staged entries a failing commit has already written is an input (any subset of the batch), because the basic batch of the browser build's datastore writes its puts in map order; the native Badger datastore is not part of this model and its commit is given the same freedom.
- InvertedIndex.AddMultihashesForShard: the datastore key of a multihash is taken to be the multihash itself, so `ds.NewKey` is assumed injective.
- The CAR reader, Reed–Solomon extension and NMT roots are parameters. The `ProofsAdder` visitor passed to the square computation is left out.
- The context of every call is left out. So are cancellation and the debug logging in the retrieval code.
- The error of the host's `Network().Listen` call is left out. The model returns the parsed list that is handed to it.
- Multiaddr parsing itself is a parameter.
- The bootstrapper's HTTP server and its peer loop in `main` are left out as process-level I/O. Only `isWebtransportPeer` is modelled.
- The connection manager, connection gater and peer store constructors in misc.go are left out. They only wrap library constructors.
- The printing in the validation observer and in `GenerateKeys` is left out, and so is the debug log line of `isWebtransportPeer`.
- Keyring.GenerateKeys: a failed `NewMnemonic` is assumed to store nothing.
- The slices in the browser node's loop share a backing array. The trusted peers are built by appending to the bootstrap addresses, so a later append to the bootstrap addresses outside the loop could overwrite their last element. The model tracks the values at the end of the loop only.
- GoStrings.Split: only one-character separators are modelled, which is all the parser uses.
- The JavaScript glue of the browser node around the parsing loop (the node start) is left out. It is a foreign call.

## Findings

| source | as written | input that shows it | evidently intended | confidence | as-written member | corrected member |
|---|---|---|---|---|---|---|
| libs/wasmfs/wasmfs.go:213-244 | `Write` stores the bytes at the position and does not advance the position | a fresh handle on an empty file; Write([1]) then Write([2]) leaves the file as [2] | advance the position by the count, as every `io.Writer` file does, giving [1, 2] | medium, not executed | WasmFs.ConsecutiveWritesOverwrite | WasmFs.ConsecutiveWritesConcatenate |
| libs/jsnode/node.go:39 | each address sets the trusted peers to the new bootstrap list plus the address again | input "/ip4/1.2.3.4/tcp/2121" with empty defaults gives trusted peers ["/ip4/1.2.3.4/tcp/2121", "/ip4/1.2.3.4/tcp/2121"], and any default trusted peers are dropped | append the address to the trusted peers | low, not executed | JsNode.OneAddressTrustedTwice | JsNode.CorrectedTrustsEachAddressOnce |

=== FILE: addrs.dfy ===
/** Which addresses a node listens on and which it announces
    (nodebuilder/p2p/addrs.go). */
module Addrs {
  import opened Common
  import opened Multiaddr

  datatype AddrError =
    | ListenParse(addr: string)       // "failure to parse config.P2P.ListenAddresses"
    | AnnounceParse(addr: string)     // "failure to parse config.P2P.AnnounceAddresses"
    | NoAnnounceParse(addr: string)   // "failure to parse config.P2P.NoAnnounceAddresses"

  /** True when an address runs over QUIC v1 or WebTransport. */
  predicate UsesQuic(m: Multiaddr)
  {
    P_QUIC_V1 in m.protocols || P_WEBTRANSPORT in m.protocols
  }

  /** The listen filter: with QUIC disabled, QUIC and WebTransport addresses go. */
  function ListenFilter(enableQuic: bool): Multiaddr -> bool
  {
    m => enableQuic || !UsesQuic(m)
  }

  /** What `Listen` hands to the network: the parsed listen addresses, in
      order, less QUIC and WebTransport ones when QUIC is disabled; or the first
      address that does not parse. */
  function ListenAddrs(listen: seq<string>, enableQuic: bool, parse: Parser): (r: Result<seq<Multiaddr>, AddrError>)
    ensures r.Err? <==> exists i :: 0 <= i < |listen| && parse(listen[i]).None?
    ensures r.Err? ==> r.error == ListenParse(ParseEach(listen, parse).error)
    ensures r.Ok? ==> r.value == Filter(ParseEach(listen, parse).value, ListenFilter(enableQuic))
    ensures r.Ok? && enableQuic ==> r.value == ParseEach(listen, parse).value
    ensures r.Ok? && !enableQuic ==>
      && (forall m :: m in r.value ==> m in ParseEach(listen, parse).value && !UsesQuic(m))
      && (forall m :: m in ParseEach(listen, parse).value && !UsesQuic(m) ==> m in r.value)
  {
    match ParseEach(listen, parse)
    case Err(a) => Err(ListenParse(a))
    case Ok(ms) =>
      if enableQuic then FilterKeepsAll(ms, ListenFilter(enableQuic)); Ok(Filter(ms, ListenFilter(enableQuic)))
      else Ok(Filter(ms, ListenFilter(enableQuic)))
  }

  /** `Listen`: parses and filters the configured addresses one by one. An
      address that does not parse aborts before anything is listened on. */
  method Listen(listen: seq<string>, enableQuic: bool, parse: Parser) returns (r: Result<seq<Multiaddr>, AddrError>)
    ensures r == ListenAddrs(listen, enableQuic, parse)
  {
    var maListen: seq<Multiaddr> := [];
    var i := 0;
    while i < |listen|
      invariant i <= |listen|
      invariant ParseEach(listen[..i], parse).Ok?
      invariant maListen == Filter(ParseEach(listen[..i], parse).value, ListenFilter(enableQuic))
    {
      var parsed := parse(listen[i]);
      if parsed.None? {
        ListenFailsAt(listen, i, enableQuic, parse);
        return Err(ListenParse(listen[i]));
      }
      var maddr := parsed.value;
      ListenStep(listen, i, enableQuic, parse);
      if !enableQuic && UsesQuic(maddr) {
        i := i + 1;
        continue;
      }
      maListen := maListen + [maddr];
      i := i + 1;
    }
    assert listen[..i] == listen;
    return Ok(maListen);
  }

  /** One iteration of `Listen` that parses: the filtered prefix grows by the
      address exactly when the filter keeps it. */
  lemma ListenStep(listen: seq<string>, i: nat, enableQuic: bool, parse: Parser)
    requires i < |listen| && ParseEach(listen[..i], parse).Ok? && parse(listen[i]).Some?
    ensures ParseEach(listen[..i + 1], parse).Ok?
    ensures
      var m := parse(listen[i]).value;
      var before := Filter(ParseEach(listen[..i], parse).value, ListenFilter(enableQuic));
      var after := Filter(ParseEach(listen[..i + 1], parse).value, ListenFilter(enableQuic));
      && (enableQuic || !UsesQuic(m) ==> after == before + [m])
      && (!enableQuic && UsesQuic(m) ==> after == before)
  {
    var keep := ListenFilter(enableQuic);
    var prefix := ParseEach(listen[..i], parse).value;
    var m := parse(listen[i]).value;
    ParseExtends(listen, i, parse);
    FilterAppend(prefix, [m], keep);
    FilterSingleton(m, keep);
    assert keep(m) == (enableQuic || !UsesQuic(m));
    if !keep(m) {
      assert Filter(prefix, keep) + [] == Filter(prefix, keep);
    }
  }

  /** An iteration of `Listen` that does not parse returns what ListenAddrs reports. */
  lemma ListenFailsAt(listen: seq<string>, i: nat, enableQuic: bool, parse: Parser)
    requires i < |listen| && ParseEach(listen[..i], parse).Ok? && parse(listen[i]).None?
    ensures ListenAddrs(listen, enableQuic, parse) == Err(ListenParse(listen[i]))
  {
    ParseFailsAt(listen, i, parse);
  }

  /** One more parsed address extends the parsed prefix by that address. */
  lemma ParseExtends(listen: seq<string>, i: nat, parse: Parser)
    requires i < |listen| && ParseEach(listen[..i], parse).Ok? && parse(listen[i]).Some?
    ensures ParseEach(listen[..i + 1], parse) == Ok(ParseEach(listen[..i], parse).value + [parse(listen[i]).value])
  {
    var before, after := listen[..i], listen[..i + 1];
    assert forall j :: 0 <= j < i ==> after[j] == before[j];
    var r := ParseEach(after, parse);
    var expected := ParseEach(before, parse).value + [parse(listen[i]).value];
    assert r.Ok?;
    assert |r.value| == i + 1 == |expected|;
    assert forall j :: 0 <= j < i + 1 ==> Some(r.value[j]) == parse(after[j]) == Some(expected[j]);
    assert r.value == expected;
  }

  /** The first address that does not parse is the one reported. */
  lemma ParseFailsAt(listen: seq<string>, i: nat, parse: Parser)
    requires i < |listen| && ParseEach(listen[..i], parse).Ok? && parse(listen[i]).None?
    ensures ParseEach(listen, parse) == Err(listen[i])
  {
    assert forall j :: 0 <= j < i ==> listen[..i][j] == listen[j];
    var r := ParseEach(listen, parse);
    var k :| 0 <= k < |listen| && r.error == listen[k] && parse(listen[k]).None? &&
             forall j :: 0 <= j < k ==> parse(listen[j]).Some?;
    assert k == i;
  }

  /** A filter that keeps everything returns its input. */
  lemma {:induction false} FilterKeepsAll(xs: seq<Multiaddr>, keep: Multiaddr -> bool)
    requires forall x :: keep(x)
    ensures Filter(xs, keep) == xs
  {
    if |xs| > 0 {
      FilterKeepsAll(xs[1..], keep);
    }
  }

  /** What `addrsFactory` builds: the parsed announce addresses and the bytes of
      the parsed no-announce addresses. */
  datatype AddrsFactory = AddrsFactory(announce: seq<Multiaddr>, noAnnounce: set<seq<byte>>)

  /** `addrsFactory`'s constructor: parses the announce addresses, then the
      no-announce addresses; the first address that does not parse is reported. */
  function MakeAddrsFactory(announce: seq<string>, noAnnounce: seq<string>, parse: Parser): (r: Result<AddrsFactory, AddrError>)
    ensures r.Ok? <==> ParseEach(announce, parse).Ok? && ParseEach(noAnnounce, parse).Ok?
    ensures ParseEach(announce, parse).Err? ==> r == Err(AnnounceParse(ParseEach(announce, parse).error))
    ensures ParseEach(announce, parse).Ok? && ParseEach(noAnnounce, parse).Err? ==>
      r == Err(NoAnnounceParse(ParseEach(noAnnounce, parse).error))
    ensures r.Ok? ==>
      && r.value.announce == ParseEach(announce, parse).value
      && forall bs :: bs in r.value.noAnnounce <==> exists m :: m in ParseEach(noAnnounce, parse).value && m.bytes == bs
  {
    match ParseEach(announce, parse)
    case Err(a) => Err(AnnounceParse(a))
    case Ok(maAnnounce) =>
      match ParseEach(noAnnounce, parse)
      case Err(a) => Err(NoAnnounceParse(a))
      case Ok(maNoAnnounce) => Ok(AddrsFactory(maAnnounce, set m | m in maNoAnnounce :: m.bytes))
  }

  /** The factory's test for a listen address: its bytes are not marked as
      no-announce. */
  function Admitted(f: AddrsFactory): Multiaddr -> bool
  {
    (m: Multiaddr) => m.bytes !in f.noAnnounce
  }

  /** The address factory itself: every announce address, in order, then the
      listen addresses whose bytes are not marked as no-announce, in order. */
  function Announced(f: AddrsFactory, listen: seq<Multiaddr>): (out: seq<Multiaddr>)
    ensures |f.announce| <= |out| <= |f.announce| + |listen|
    ensures out[..|f.announce|] == f.announce
    ensures out[|f.announce|..] == Filter(listen, Admitted(f))
    ensures forall m :: m in out[|f.announce|..] ==> m in listen && m.bytes !in f.noAnnounce
    ensures forall m :: m in listen && m.bytes !in f.noAnnounce ==> m in out[|f.announce|..]
  {
    var kept := Filter(listen, Admitted(f));
    assert (f.announce + kept)[|f.announce|..] == kept;
    f.announce + kept
  }

  /** The listen addresses keep their order and multiplicity: announcing a
      concatenation announces the first part, then what survives of the second. */
  lemma AnnouncedAppend(f: AddrsFactory, l1: seq<Multiaddr>, l2: seq<Multiaddr>)
    ensures Announced(f, l1 + l2) == Announced(f, l1) + Filter(l2, Admitted(f))
  {
    FilterAppend(l1, l2, Admitted(f));
  }

  /** With nothing marked no-announce, the listen addresses follow the announce
      addresses exactly as given, duplicates included. */
  lemma NothingSilencedKeepsListen(announce: seq<Multiaddr>, listen: seq<Multiaddr>)
    ensures Announced(AddrsFactory(announce, {}), listen) == announce + listen
  {
    FilterKeepsAll(listen, Admitted(AddrsFactory(announce, {})));
  }

  /** Announce addresses are announced even when they are also listed as
      no-announce; a listen address with the same bytes is dropped. */
  lemma AnnounceWinsOverNoAnnounce(a: Multiaddr, listen: seq<Multiaddr>)
    ensures
      var f := AddrsFactory([a], {a.bytes});
      var out := Announced(f, listen);
      out[0] == a && forall m :: m in out[1..] ==> m.bytes != a.bytes
  {
  }
}

=== FILE: bootstrapper.dfy ===
/** The WebTransport bootstrapper's address test (cmd/bootstrapper/main.go,
    isWebtransportPeer): which multiaddresses it treats as secure WebTransport
    addresses. */
module Bootstrapper {
  import opened Common
  import opened Multiaddr

  /** The reference definition: an address is a secure WebTransport address
      when it carries IPv4, UDP, WebTransport and a certificate hash. */
  predicate IsSecureWebtransport(protocols: seq<Code>)
  {
    P_IP4 in protocols && P_UDP in protocols && P_WEBTRANSPORT in protocols && P_CERTHASH in protocols
  }

  /** `isWebtransportPeer`: one pass over the protocols, setting a flag per
      required code. */
  method IsWebtransportPeer(addr: Multiaddr) returns (b: bool)
    ensures b <==> IsSecureWebtransport(addr.protocols)
  {
    var hasIPv4, hasUDP, hasWebtransport, hasCerthash := false, false, false, false;
    var i := 0;
    while i < |addr.protocols|
      invariant i <= |addr.protocols|
      invariant hasIPv4 <==> P_IP4 in addr.protocols[..i]
      invariant hasUDP <==> P_UDP in addr.protocols[..i]
      invariant hasWebtransport <==> P_WEBTRANSPORT in addr.protocols[..i]
      invariant hasCerthash <==> P_CERTHASH in addr.protocols[..i]
    {
      var code := addr.protocols[i];
      assert addr.protocols[..i + 1] == addr.protocols[..i] + [code];
      if code == P_IP4 {
        hasIPv4 := true;
      } else if code == P_UDP {
        hasUDP := true;
      } else if code == P_WEBTRANSPORT {
        hasWebtransport := true;
      } else if code == P_CERTHASH {
        hasCerthash := true;
      }
      i := i + 1;
    }
    assert addr.protocols[..i] == addr.protocols;
    return hasIPv4 && hasUDP && hasWebtransport && hasCerthash;
  }

  /** Only the set of codes matters: order and repetition do not. */
  lemma OnlyTheProtocolSetMatters(ps: seq<Code>, qs: seq<Code>)
    requires forall c :: c in ps <==> c in qs
    ensures IsSecureWebtransport(ps) <==> IsSecureWebtransport(qs)
  {
  }

  /** Adding protocols never turns a WebTransport address into another kind. */
  lemma ExtendingKeepsWebtransport(ps: seq<Code>, qs: seq<Code>)
    requires IsSecureWebtransport(ps)
    ensures IsSecureWebtransport(ps + qs) && IsSecureWebtransport(qs + ps)
  {
  }

  /** A plain QUIC address over IPv4, with or without WebTransport but without
      a certificate hash, is not selected. */
  lemma NoCerthashNotSelected(rest: seq<Code>)
    requires P_CERTHASH !in rest
    ensures !IsSecureWebtransport([P_IP4, P_UDP, P_QUIC_V1, P_WEBTRANSPORT] + rest)
  {
    var ps := [P_IP4, P_UDP, P_QUIC_V1, P_WEBTRANSPORT] + rest;
    assert forall i :: 0 <= i < 4 ==> ps[i] != P_CERTHASH;
    assert forall i :: 4 <= i < |ps| ==> ps[i] == rest[i - 4];
  }
}

=== FILE: common.dfy ===
/** Vocabulary shared by every model in this project: bytes, optional values,
    Go-style error returns, and an order-preserving filter over sequences. */
module Common {

  /** A Go `byte`. */
  newtype byte = b: int | 0 <= b < 256

  /** `n` zero bytes, as `bytes.Repeat([]byte{0}, n)` builds them. */
  function Zeros(n: nat): (z: seq<byte>)
    ensures |z| == n
    ensures forall i :: 0 <= i < n ==> z[i] == 0
  {
    seq(n, _ => 0)
  }

  datatype Option<+T> = None | Some(value: T)

  /** A value-carrying Go return `(T, error)`. */
  datatype Result<+T, +E> = Ok(value: T) | Err(error: E)

  /** A Go return that is only an `error`: `nil` is `Pass`. */
  datatype Outcome<+E> = Pass | Fail(error: E)

  /** The elements of `xs` that satisfy `keep`, in their original order. */
  function Filter<T(!new)>(xs: seq<T>, keep: T -> bool): (r: seq<T>)
    ensures |r| <= |xs|
    ensures forall x :: x in r ==> x in xs && keep(x)
    ensures forall x :: x in xs && keep(x) ==> x in r
  {
    if |xs| == 0 then []
    else if keep(xs[0]) then [xs[0]] + Filter(xs[1..], keep)
    else Filter(xs[1..], keep)
  }

  /** Every kept element occurs as often as in the input; every other element
      does not occur at all. */
  lemma {:induction false} FilterCounts<T(!new)>(xs: seq<T>, keep: T -> bool, x: T)
    ensures multiset(Filter(xs, keep))[x] == if keep(x) then multiset(xs)[x] else 0
  {
    if |xs| > 0 {
      FilterCounts(xs[1..], keep, x);
      assert xs == [xs[0]] + xs[1..];
    }
  }

  /** Filtering distributes over concatenation, so it keeps the relative order. */
  lemma {:induction false} FilterAppend<T(!new)>(xs: seq<T>, ys: seq<T>, keep: T -> bool)
    ensures Filter(xs + ys, keep) == Filter(xs, keep) + Filter(ys, keep)
  {
    if |xs| == 0 {
      assert xs + ys == ys;
    } else {
      assert (xs + ys)[1..] == xs[1..] + ys;
      FilterAppend(xs[1..], ys, keep);
    }
  }

  /** A one-element sequence is kept whole or dropped whole; with FilterAppend
      this pins down the result of every filter element by element. */
  lemma FilterSingleton<T(!new)>(x: T, keep: T -> bool)
    ensures Filter([x], keep) == if keep(x) then [x] else []
  {
    assert [x][1..] == [];
  }

  /** True when no element occurs twice in `xs`. */
  predicate NoDuplicates<T(==)>(xs: seq<T>)
  {
    forall i, j :: 0 <= i < j < |xs| ==> xs[i] != xs[j]
  }

  /** Appending an element not yet present keeps a sequence duplicate-free. */
  lemma NoDuplicatesAppend<T>(xs: seq<T>, x: T)
    requires NoDuplicates(xs) && x !in xs
    ensures NoDuplicates(xs + [x])
  {
    var ys := xs + [x];
    forall i, j | 0 <= i < j < |ys|
      ensures ys[i] != ys[j]
    {
      if j == |xs| {
        assert ys[i] == xs[i];
      } else {
        assert ys[i] == xs[i] && ys[j] == xs[j];
      }
    }
  }
}

=== FILE: conn_manager.dfy ===
/** The default connection-manager watermarks per node type
    (nodebuilder/p2p/misc.go and, for the browser build, misc_wasm.go). A Go
    panic is modelled as an `Err` carrying the panic message. */
module ConnManager {
  import opened Common

  /** A node type; `Other` stands for any value outside the three known ones. */
  datatype NodeType = Bridge | Full | Light | Other(code: int)

  /** One minute as a Go time.Duration, in nanoseconds. */
  const Minute: int := 60_000_000_000

  /** `connManagerConfig`: keep between Low and High connections; a new
      connection is safe from pruning for GracePeriod. */
  datatype ConnManagerConfig = ConnManagerConfig(low: int, high: int, gracePeriod: int)

  /** `defaultConnManagerConfig`. */
  function DefaultConnManagerConfig(tp: NodeType): (r: Result<ConnManagerConfig, string>)
    ensures r.Ok? <==> !tp.Other?
    ensures tp == Light ==> r == Ok(ConnManagerConfig(50, 100, Minute))
    ensures tp == Bridge || tp == Full ==> r == Ok(ConnManagerConfig(800, 1000, Minute))
    ensures tp.Other? ==> r == Err("unknown node type")
  {
    match tp
    case Light => Ok(ConnManagerConfig(50, 100, Minute))
    case Bridge => Ok(ConnManagerConfig(800, 1000, Minute))
    case Full => Ok(ConnManagerConfig(800, 1000, Minute))
    case Other(_) => Err("unknown node type")
  }

  /** `defaultConnManagerConfigWasm`: only light nodes run in a browser. */
  function DefaultConnManagerConfigWasm(tp: NodeType): (r: Result<ConnManagerConfig, string>)
    ensures r.Ok? <==> tp == Light
    ensures tp == Light ==> r == Ok(ConnManagerConfig(1, 10, Minute))
    ensures tp != Light ==> r == Err("unknown wasm (browser) supported node type")
  {
    match tp
    case Light => Ok(ConnManagerConfig(1, 10, Minute))
    case _ => Err("unknown wasm (browser) supported node type")
  }

  /** A usable configuration: positive watermarks, Low strictly below High,
      and a positive grace period. */
  predicate WellFormed(c: ConnManagerConfig)
  {
    0 < c.low < c.high && c.gracePeriod > 0
  }

  /** Every configuration either table hands out is well formed. */
  lemma DefaultsWellFormed(tp: NodeType)
    ensures DefaultConnManagerConfig(tp).Ok? ==> WellFormed(DefaultConnManagerConfig(tp).value)
    ensures DefaultConnManagerConfigWasm(tp).Ok? ==> WellFormed(DefaultConnManagerConfigWasm(tp).value)
  {
  }

  /** The browser build accepts a subset of the node types, keeps the same grace
      period and never allows more connections than the native light node. */
  lemma WasmRefinesNative(tp: NodeType)
    requires DefaultConnManagerConfigWasm(tp).Ok?
    ensures DefaultConnManagerConfig(tp).Ok?
    ensures DefaultConnManagerConfigWasm(tp).value.gracePeriod == DefaultConnManagerConfig(tp).value.gracePeriod
    ensures DefaultConnManagerConfigWasm(tp).value.high <= DefaultConnManagerConfig(tp).value.low
  {
  }
}

=== FILE: fs_keystore.dfy ===
/** The file-system keystore (libs/keystore/fs_keystore.go): one file per key,
    named by the base32 form of the key name inside the keystore directory, with
    JSON contents and owner-only permissions. The file system is a map from
    paths to (mode, bytes) plus the set of paths whose Stat fails for a reason
    other than "does not exist". Base32, JSON and path joining are parameters. */
module FsKeystore {
  import opened Common
  import opened Keystore

  /** An `os.FileMode`. */
  type FileMode = bv32

  /** 0o077: the group and other permission bits. */
  const GroupOtherBits: FileMode := 0x3f
  /** 0o777: `fs.ModePerm`. */
  const ModePerm: FileMode := 0x1ff
  /** 0o700: the owner permission bits. */
  const OwnerBits: FileMode := 0x1c0
  /** 0o600: the mode key files are created with. */
  const KeyFileMode: FileMode := 0x180
  /** `fs.ModeType`: ModeDir | ModeSymlink | ModeNamedPipe | ModeSocket |
      ModeDevice | ModeCharDevice | ModeIrregular. */
  const ModeType: FileMode := 0x8f28_0000

  datatype PermError = Required0600(got: FileMode)

  /** `checkPerms`: a mode is acceptable when it grants nothing to group or others. */
  function CheckPerms(perms: FileMode): (r: Outcome<PermError>)
    ensures r.Fail? ==> r.error.got == perms
  {
    if perms & GroupOtherBits != 0 then Fail(Required0600(perms)) else Pass
  }

  /** checkPerms accepts exactly the modes whose permission bits are a subset of
      the owner's rwx bits, i.e. none of the six group/other bits is set. */
  lemma CheckPermsIffOwnerOnly(perms: FileMode)
    ensures CheckPerms(perms).Pass? <==> perms & ModePerm == perms & OwnerBits
    ensures CheckPerms(perms).Pass? <==>
      && perms & 0x20 == 0 && perms & 0x10 == 0 && perms & 0x8 == 0
      && perms & 0x4 == 0 && perms & 0x2 == 0 && perms & 0x1 == 0
  {
  }

  /** `fs.DirEntry.Type()`: only the type bits of a mode. */
  function TypeBits(mode: FileMode): (t: FileMode)
    ensures t & ModePerm == 0
    ensures CheckPerms(t).Pass?
  {
    mode & ModeType
  }

  datatype Entry = Entry(mode: FileMode, data: seq<byte>)

  datatype Fs = Fs(files: map<string, Entry>, statFaults: set<string>)

  datatype StatResult = Found(mode: FileMode) | Missing | StatFault

  /** `afero.Fs.Stat`, reduced to what the keystore inspects. */
  function Stat(fs: Fs, path: string): (r: StatResult)
    ensures r.Found? <==> path !in fs.statFaults && path in fs.files
    ensures r.Missing? <==> path !in fs.statFaults && path !in fs.files
    ensures r.Found? ==> r.mode == fs.files[path].mode
  {
    if path in fs.statFaults then StatFault
    else if path in fs.files then Found(fs.files[path].mode)
    else Missing
  }

  /** The pieces of the keystore that are library code. */
  datatype Foreign = Foreign(
    pathTo: KeyName -> string,                  // filepath.Join(dir, n.Base32())
    marshal: PrivKey -> seq<byte>,              // json.Marshal
    unmarshal: seq<byte> -> Option<PrivKey>,    // json.Unmarshal
    nameFromBase32: string -> Option<KeyName>)  // KeyNameFromBase32

  datatype Step = Step(fs: Fs, status: Outcome<KeystoreError>)

  /** `fsKeystore.Put`: refuses when anything is found (or Stat fails) at the
      key's path; otherwise writes the JSON of the key with mode 0600. */
  function Put(fs: Fs, c: Foreign, n: KeyName, pk: PrivKey): (r: Step)
    ensures Stat(fs, c.pathTo(n)).Found? ==> r == Step(fs, Fail(AlreadyExists(n)))
    ensures Stat(fs, c.pathTo(n)).StatFault? ==> r == Step(fs, Fail(CheckFailed(n)))
    ensures r.status.Pass? <==> Stat(fs, c.pathTo(n)).Missing?
    ensures r.status.Pass? ==>
      && r.fs.statFaults == fs.statFaults
      && r.fs.files == fs.files[c.pathTo(n) := Entry(KeyFileMode, c.marshal(pk))]
      && CheckPerms(r.fs.files[c.pathTo(n)].mode).Pass?
  {
    var path := c.pathTo(n);
    match Stat(fs, path)
    case Found(_) => Step(fs, Fail(AlreadyExists(n)))
    case StatFault => Step(fs, Fail(CheckFailed(n)))
    case Missing =>
      var data := c.marshal(pk);
      Step(fs.(files := fs.files[path := Entry(KeyFileMode, data)]), Pass)
  }

  /** `fsKeystore.Get`: a missing file is ErrNotFound; a file with group or other
      permissions is refused before its contents are read. */
  function Get(fs: Fs, c: Foreign, n: KeyName): (r: Result<PrivKey, KeystoreError>)
    ensures Stat(fs, c.pathTo(n)).Missing? <==> r.Err? && IsErrNotFound(r.error)
    ensures Stat(fs, c.pathTo(n)).StatFault? ==> r == Err(CheckFailed(n))
    ensures Stat(fs, c.pathTo(n)).Found? && CheckPerms(fs.files[c.pathTo(n)].mode).Fail? ==>
      r == Err(PermsTooRelaxed(n))
    ensures Stat(fs, c.pathTo(n)).Found? && CheckPerms(fs.files[c.pathTo(n)].mode).Pass? ==>
      (r.Ok? <==> c.unmarshal(fs.files[c.pathTo(n)].data).Some?)
    ensures
      (Stat(fs, c.pathTo(n)).Found? && CheckPerms(fs.files[c.pathTo(n)].mode).Pass? &&
       c.unmarshal(fs.files[c.pathTo(n)].data).None?) ==> r == Err(UnmarshalFailed(n))
    ensures r.Ok? ==>
      && c.pathTo(n) in fs.files
      && CheckPerms(fs.files[c.pathTo(n)].mode).Pass?
      && c.unmarshal(fs.files[c.pathTo(n)].data) == Some(r.value)
  {
    var path := c.pathTo(n);
    match Stat(fs, path)
    case Missing => Err(NotFound(n))
    case StatFault => Err(CheckFailed(n))
    case Found(mode) =>
      if CheckPerms(mode).Fail? then Err(PermsTooRelaxed(n))
      else
        match c.unmarshal(fs.files[path].data)
        case None => Err(UnmarshalFailed(n))
        case Some(key) => Ok(key)
  }

  /** `fsKeystore.Delete`: removes the key's file and nothing else.
      `removeFails` is a failure of the file system's Remove. A missing file is
      an error that does not wrap ErrNotFound. */
  function Delete(fs: Fs, c: Foreign, n: KeyName, removeFails: bool): (r: Step)
    ensures Stat(fs, c.pathTo(n)).Missing? ==> r == Step(fs, Fail(KeyMissing(n)))
    ensures Stat(fs, c.pathTo(n)).StatFault? ==> r == Step(fs, Fail(CheckFailed(n)))
    ensures Stat(fs, c.pathTo(n)).Found? && removeFails ==> r == Step(fs, Fail(DeleteFailed(n)))
    ensures r.status.Pass? <==> Stat(fs, c.pathTo(n)).Found? && !removeFails
    ensures r.status.Fail? ==> r.fs == fs && !IsErrNotFound(r.status.error)
    ensures r.status.Pass? ==>
      && r.fs.statFaults == fs.statFaults
      && r.fs.files.Keys == fs.files.Keys - {c.pathTo(n)}
      && (forall p :: p in r.fs.files ==> r.fs.files[p] == fs.files[p])
  {
    var path := c.pathTo(n);
    match Stat(fs, path)
    case Missing => Step(fs, Fail(KeyMissing(n)))
    case StatFault => Step(fs, Fail(CheckFailed(n)))
    case Found(_) =>
      if removeFails then Step(fs, Fail(DeleteFailed(n)))
      else Step(fs.(files := fs.files - {path}), Pass)
  }

  /** A directory entry as `fs.ReadDir` reports it. */
  datatype DirEntry = DirEntry(name: string, mode: FileMode)

  /** The loop of `fsKeystore.List` over the directory entries: decodes each file
      name from base32 and checks the permissions of the entry's TYPE bits. */
  function ListEntries(entries: seq<DirEntry>, c: Foreign): (r: Result<seq<KeyName>, KeystoreError>)
    ensures r.Ok? <==> forall i :: 0 <= i < |entries| ==> c.nameFromBase32(entries[i].name).Some?
    ensures r.Ok? ==>
      && |r.value| == |entries|
      && forall i :: 0 <= i < |entries| ==> c.nameFromBase32(entries[i].name) == Some(r.value[i])
    ensures r.Err? ==>
      exists i :: 0 <= i < |entries| && c.nameFromBase32(entries[i].name).None?
        && r.error == BadFileName(entries[i].name)
        && forall j :: 0 <= j < i ==> c.nameFromBase32(entries[j].name).Some?
  {
    if |entries| == 0 then Ok([])
    else
      var e := entries[0];
      match c.nameFromBase32(e.name)
      case None => Err(BadFileName(e.name))
      case Some(kn) =>
        if CheckPerms(TypeBits(e.mode)).Fail? then Err(PermsTooRelaxed(kn))
        else
          match ListEntries(entries[1..], c)
          case Err(err) =>
            assert forall j :: 1 <= j < |entries| ==> entries[1..][j - 1] == entries[j];
            Err(err)
          case Ok(rest) => Ok([kn] + rest)
  }

  /** `fsKeystore.List`: a failure to read the directory is passed on. The
      listing comes from the operating system's directory, not from `fs`. */
  function List(listing: Result<seq<DirEntry>, KeystoreError>, c: Foreign): (r: Result<seq<KeyName>, KeystoreError>)
    ensures listing.Err? ==> r == Err(listing.error)
    ensures listing.Ok? ==> r == ListEntries(listing.value, c)
  {
    match listing
    case Err(e) => Err(e)
    case Ok(entries) => ListEntries(entries, c)
  }

  /** Put on a free path followed by Get returns the key, when JSON decoding
      inverts encoding. The mode 0600 that Put writes passes the check in Get. */
  lemma PutThenGet(fs: Fs, c: Foreign, n: KeyName, pk: PrivKey)
    requires Stat(fs, c.pathTo(n)).Missing?
    requires c.unmarshal(c.marshal(pk)) == Some(pk)
    ensures Put(fs, c, n, pk).status.Pass?
    ensures Get(Put(fs, c, n, pk).fs, c, n) == Ok(pk)
  {
  }

  /** After a successful Delete, Get of that name reports ErrNotFound. */
  lemma DeleteThenGetNotFound(fs: Fs, c: Foreign, n: KeyName, removeFails: bool)
    requires Delete(fs, c, n, removeFails).status.Pass?
    ensures Get(Delete(fs, c, n, removeFails).fs, c, n) == Err(NotFound(n))
  {
  }

  /** A Delete whose Remove fails keeps the key readable exactly as before. */
  lemma FailedDeleteKeepsKey(fs: Fs, c: Foreign, n: KeyName)
    requires Stat(fs, c.pathTo(n)).Found?
    ensures Delete(fs, c, n, true).status == Fail(DeleteFailed(n))
    ensures Get(Delete(fs, c, n, true).fs, c, n) == Get(fs, c, n)
  {
  }

  /** The permission check inside List never fires: a key file with mode 0644,
      which Get refuses, is listed without complaint. */
  lemma ListIgnoresPermissionBits(fs: Fs, c: Foreign, n: KeyName, file: string)
    requires c.nameFromBase32(file) == Some(n)
    requires Stat(fs, c.pathTo(n)).Found? && fs.files[c.pathTo(n)].mode == 0x1a4
    ensures ListEntries([DirEntry(file, 0x1a4)], c) == Ok([n])
    ensures Get(fs, c, n) == Err(PermsTooRelaxed(n))
  {
    var entries := [DirEntry(file, 0x1a4)];
    assert entries[1..] == [];
    assert ListEntries(entries[1..], c) == Ok([]);
    assert CheckPerms(TypeBits(0x1a4)).Pass?;
    assert [n] + [] == [n];
  }
}

=== FILE: go_strings.dfy ===
/** The two functions of Go's `strings` package the bootstrap-address parser
    uses: `Split` with a one-character separator, and `TrimSpace`. */
module GoStrings {

  /** The white-space characters outside the range U+2000 to U+200A. */
  const SpaceChars: set<char> := {
    '\t', '\n', '\U{000B}', '\U{000C}', '\r', ' ', '\U{0085}', '\U{00A0}', '\U{1680}',
    '\U{2028}', '\U{2029}', '\U{202F}', '\U{205F}', '\U{3000}'}

  /** `unicode.IsSpace`: the Latin-1 spaces and the other characters with the
      Unicode White_Space property. */
  predicate IsSpace(c: char)
  {
    c in SpaceChars || '\U{2000}' <= c <= '\U{200A}'
  }

  /** Puts the pieces back together with `sep` between neighbours. */
  function Join(pieces: seq<string>, sep: char): (s: string)
    requires |pieces| >= 1
  {
    if |pieces| == 1 then pieces[0] else pieces[0] + [sep] + Join(pieces[1..], sep)
  }

  /** `strings.Split(s, string(sep))`: the maximal runs between separators, so
      n separators give n + 1 pieces, and the empty string gives one empty
      piece. */
  function Split(s: string, sep: char): (pieces: seq<string>)
    ensures |pieces| >= 1
    ensures forall i :: 0 <= i < |pieces| ==> sep !in pieces[i]
    decreases |s|
  {
    if |s| == 0 then [""]
    else
      var rest := Split(s[1..], sep);
      if s[0] == sep then [""] + rest
      else [[s[0]] + rest[0]] + rest[1..]
  }

  /** Joining the pieces gives back the input. */
  lemma {:induction false} JoinSplit(s: string, sep: char)
    ensures Join(Split(s, sep), sep) == s
    decreases |s|
  {
    if |s| > 0 {
      var rest := Split(s[1..], sep);
      JoinSplit(s[1..], sep);
      if s[0] == sep {
        assert ([""] + rest)[1..] == rest;
      } else {
        var pieces := [[s[0]] + rest[0]] + rest[1..];
        if |rest| > 1 {
          assert pieces[1..] == rest[1..];
          assert Join(rest, sep) == rest[0] + [sep] + Join(rest[1..], sep);
        }
        assert s == [s[0]] + s[1..];
      }
    }
  }

  /** A piece without separators splits to itself. */
  lemma {:induction false} SplitPlain(p: string, sep: char)
    requires sep !in p
    ensures Split(p, sep) == [p]
    decreases |p|
  {
    if |p| > 0 {
      assert sep !in p[1..];
      SplitPlain(p[1..], sep);
      assert p == [p[0]] + p[1..];
    }
  }

  /** A separator right after a piece without separators ends that piece. */
  lemma {:induction false} SplitAfterPiece(p: string, sep: char, t: string)
    requires sep !in p
    ensures Split(p + [sep] + t, sep) == [p] + Split(t, sep)
    decreases |p|
  {
    var s := p + [sep] + t;
    if |p| == 0 {
      assert s[0] == sep && s[1..] == t;
    } else {
      assert s[0] == p[0] && s[1..] == p[1..] + [sep] + t;
      assert sep !in p[1..];
      SplitAfterPiece(p[1..], sep, t);
      assert p == [p[0]] + p[1..];
    }
  }

  /** Splitting the join of separator-free pieces gives back the pieces. */
  lemma {:induction false} SplitJoin(pieces: seq<string>, sep: char)
    requires |pieces| >= 1
    requires forall i :: 0 <= i < |pieces| ==> sep !in pieces[i]
    ensures Split(Join(pieces, sep), sep) == pieces
  {
    if |pieces| == 1 {
      SplitPlain(pieces[0], sep);
    } else {
      SplitJoin(pieces[1..], sep);
      SplitAfterPiece(pieces[0], sep, Join(pieces[1..], sep));
      assert pieces == [pieces[0]] + pieces[1..];
    }
  }

  /** The forward scan of `TrimSpace`: the first index at or after `i` that
      does not hold white space, or |s|. */
  function SkipSpace(s: string, i: nat): (j: nat)
    requires i <= |s|
    ensures i <= j <= |s|
    ensures forall k :: i <= k < j ==> IsSpace(s[k])
    ensures j < |s| ==> !IsSpace(s[j])
    decreases |s| - i
  {
    if i < |s| && IsSpace(s[i]) then SkipSpace(s, i + 1) else i
  }

  /** The backward scan of `TrimSpace`: walks `stop` down from `hi` while the
      character before it is white space, but not below `lo`. */
  function BackSpace(s: string, lo: nat, hi: nat): (j: nat)
    requires lo <= hi <= |s|
    ensures lo <= j <= hi
    ensures forall k :: j <= k < hi ==> IsSpace(s[k])
    ensures j > lo ==> !IsSpace(s[j - 1])
    decreases hi
  {
    if hi > lo && IsSpace(s[hi - 1]) then BackSpace(s, lo, hi - 1) else hi
  }

  /** The number of white-space characters `s` starts with. */
  function Leading(s: string): nat
  {
    SkipSpace(s, 0)
  }

  /** `strings.TrimSpace`: `s[start:stop]`, with `start` past the leading white
      space and `stop` before the trailing white space. */
  function TrimSpace(s: string): (t: string)
    ensures |t| <= |s|
    ensures |t| > 0 ==> !IsSpace(t[0]) && !IsSpace(t[|t| - 1])
  {
    var start := SkipSpace(s, 0);
    s[start..BackSpace(s, start, |s|)]
  }

  /** What `TrimSpace` keeps is the part of `s` between its leading and its
      trailing white space. */
  lemma TrimSpaceKeepsTheMiddle(s: string)
    ensures Leading(s) + |TrimSpace(s)| <= |s|
    ensures TrimSpace(s) == s[Leading(s)..Leading(s) + |TrimSpace(s)|]
    ensures forall k :: 0 <= k < Leading(s) ==> IsSpace(s[k])
    ensures forall k :: Leading(s) + |TrimSpace(s)| <= k < |s| ==> IsSpace(s[k])
  {
  }

  /** A string that neither starts nor ends with white space trims to itself. */
  lemma TrimmedIsFixed(s: string)
    requires |s| > 0 && !IsSpace(s[0]) && !IsSpace(s[|s| - 1])
    ensures TrimSpace(s) == s
  {
    assert SkipSpace(s, 0) == 0;
    assert BackSpace(s, 0, |s|) == |s|;
  }

  /** A string trims to nothing exactly when it is all white space. */
  lemma BlankIffAllSpace(s: string)
    ensures |TrimSpace(s)| == 0 <==> forall k :: 0 <= k < |s| ==> IsSpace(s[k])
  {
    var t := TrimSpace(s);
    TrimSpaceKeepsTheMiddle(s);
    if |t| > 0 {
      assert s[Leading(s)] == t[0];
    }
  }

  /** Trimming twice gives the same as trimming once. */
  lemma TrimSpaceIdempotent(s: string)
    ensures TrimSpace(TrimSpace(s)) == TrimSpace(s)
  {
    var t := TrimSpace(s);
    if |t| > 0 {
      TrimmedIsFixed(t);
    }
  }
}

=== FILE: inverted_index.dfy ===
/** The inverted index of the block store (share/eds/inverted_index.go): from the
    multihash of each block to the key of the one shard that holds it. Only one
    shard key is kept per multihash, so a later shard overwrites an earlier one.
    The datastore is a map; its batch collects puts and writes them on commit.
    A commit is not atomic: a failing commit may already have written part of
    the batch. Failures of the datastore are inputs of each call. */
module InvertedIndex {
  import opened Common

  type Multihash = seq<byte>

  /** A `shard.Key`, stored as its string form. */
  type ShardKey = string

  type Index = map<Multihash, ShardKey>

  /** How the batch's commit ends. The browser build's datastore hands out
      go-datastore's basic batch, whose commit writes the queued puts one at a
      time, in map order, and stops at the first that fails. A failed commit has
      therefore written the staged entries in `applied` and no others. */
  datatype CommitOutcome = Committed | CommitFailsAfter(applied: set<Multihash>)

  /** Which steps of one AddMultihashesForShard call the datastore fails. */
  datatype Faults = Faults(batchFails: bool, putFails: set<Multihash>, commit: CommitOutcome)

  datatype IndexError =
    | BatchCreateFailed               // "failed to create ds batch"
    | PutFailed(mh: Multihash)        // "failed to add index entry: failed to put mh=..."
    | CommitFailed                    // "failed to commit batch"
    | NotFoundInIndex(cause: GetFailure)  // ErrNotFoundInIndex joined with the datastore error

  /** Why the datastore's Get failed: the key is absent, or the datastore itself
      failed. */
  datatype GetFailure = KeyAbsent | DatastoreFault

  datatype Step = Step(index: Index, status: Outcome<IndexError>)

  /** The batch built by `mhIter.ForEach`: one put of `sk` per multihash, in
      iteration order, stopping at the first put that fails. */
  function StageBatch(mhs: seq<Multihash>, sk: ShardKey, putFails: set<Multihash>): (r: Result<Index, IndexError>)
    ensures r.Ok? <==> forall i :: 0 <= i < |mhs| ==> mhs[i] !in putFails
    ensures r.Ok? ==> r.value.Keys == set mh | mh in mhs
    ensures r.Ok? ==> forall mh :: mh in r.value ==> r.value[mh] == sk
    ensures r.Err? ==>
      exists i :: 0 <= i < |mhs| && mhs[i] in putFails && r.error == PutFailed(mhs[i])
        && forall j :: 0 <= j < i ==> mhs[j] !in putFails
  {
    if |mhs| == 0 then Ok(map[])
    else if mhs[0] in putFails then Err(PutFailed(mhs[0]))
    else
      match StageBatch(mhs[1..], sk, putFails)
      case Err(e) =>
        FirstFailureShifts(mhs, putFails, e);
        Err(e)
      case Ok(batch) =>
        assert forall x :: x in mhs <==> x == mhs[0] || x in mhs[1..];
        Ok(batch[mhs[0] := sk])
  }

  /** A first failing put in the tail, after a head that does not fail, is the
      first failing put of the whole sequence. */
  lemma FirstFailureShifts(mhs: seq<Multihash>, putFails: set<Multihash>, e: IndexError)
    requires |mhs| > 0 && mhs[0] !in putFails
    requires exists i :: 0 <= i < |mhs| - 1 && mhs[1..][i] in putFails && e == PutFailed(mhs[1..][i]) &&
               forall j :: 0 <= j < i ==> mhs[1..][j] !in putFails
    ensures exists i :: 0 <= i < |mhs| && mhs[i] in putFails && e == PutFailed(mhs[i]) &&
              forall j :: 0 <= j < i ==> mhs[j] !in putFails
  {
    var i :| 0 <= i < |mhs| - 1 && mhs[1..][i] in putFails && e == PutFailed(mhs[1..][i]) &&
             forall j :: 0 <= j < i ==> mhs[1..][j] !in putFails;
    assert mhs[i + 1] == mhs[1..][i];
    forall j | 0 <= j < i + 1
      ensures mhs[j] !in putFails
    {
      if j > 0 {
        assert mhs[j] == mhs[1..][j - 1];
      }
    }
  }

  /** `simpleInvertedIndex.AddMultihashesForShard`: nothing is written before the
      commit; a successful commit writes every entry, a failing one some of them. */
  function AddMultihashesForShard(idx: Index, mhs: seq<Multihash>, sk: ShardKey, faults: Faults): (r: Step)
    ensures r.status.Pass? <==>
      && !faults.batchFails
      && (forall i :: 0 <= i < |mhs| ==> mhs[i] !in faults.putFails)
      && faults.commit.Committed?
    ensures r.status == Fail(CommitFailed) <==>
      && !faults.batchFails
      && (forall i :: 0 <= i < |mhs| ==> mhs[i] !in faults.putFails)
      && faults.commit.CommitFailsAfter?
    // A failure before the commit writes nothing.
    ensures r.status.Fail? && r.status.error != CommitFailed ==> r.index == idx
    // A failed commit leaves each multihash either as it was or on the new shard.
    ensures r.status == Fail(CommitFailed) ==>
      (forall mh :: Lookup(r.index, mh) ==
         if mh in mhs && mh in faults.commit.applied then Some(sk) else Lookup(idx, mh))
    ensures r.status.Pass? ==> forall i :: 0 <= i < |mhs| ==> mhs[i] in r.index && r.index[mhs[i]] == sk
    ensures r.status.Pass? ==> forall mh :: mh !in mhs ==> Lookup(r.index, mh) == Lookup(idx, mh)
    ensures r.status.Pass? ==> r.index.Keys == idx.Keys + set mh | mh in mhs
  {
    if faults.batchFails then Step(idx, Fail(BatchCreateFailed))
    else
      match StageBatch(mhs, sk, faults.putFails)
      case Err(e) => Step(idx, Fail(e))
      case Ok(batch) =>
        match faults.commit
        case CommitFailsAfter(applied) => Step(idx + Written(batch, applied), Fail(CommitFailed))
        case Committed =>
          assert forall i :: 0 <= i < |mhs| ==> mhs[i] in batch.Keys;
          Step(idx + batch, Pass)
  }

  /** The entries of a staged batch that a failing commit wrote. */
  function Written(batch: Index, applied: set<Multihash>): Index
  {
    map mh | mh in batch && mh in applied :: batch[mh]
  }

  /** The shard recorded for a multihash, if any. */
  function Lookup(idx: Index, mh: Multihash): Option<ShardKey>
  {
    if mh in idx then Some(idx[mh]) else None
  }

  /** `simpleInvertedIndex.GetShardsForMultihash`: the single recorded shard.
      `getFails` is a failure of the datastore's Get; every failure is reported
      as ErrNotFoundInIndex joined with its cause. */
  function GetShardsForMultihash(idx: Index, mh: Multihash, getFails: bool): (r: Result<seq<ShardKey>, IndexError>)
    ensures r.Err? <==> mh !in idx || getFails
    ensures r.Err? ==> r.error.NotFoundInIndex?
    ensures getFails ==> r == Err(NotFoundInIndex(DatastoreFault))
    ensures !getFails && mh !in idx ==> r == Err(NotFoundInIndex(KeyAbsent))
    ensures r.Ok? ==> r.value == [idx[mh]]
  {
    if getFails then Err(NotFoundInIndex(DatastoreFault))
    else if mh !in idx then Err(NotFoundInIndex(KeyAbsent))
    else Ok([idx[mh]])
  }

  /** After a successful add, every added multihash resolves to the new shard. */
  lemma AddThenGet(idx: Index, mhs: seq<Multihash>, sk: ShardKey, faults: Faults, mh: Multihash)
    requires AddMultihashesForShard(idx, mhs, sk, faults).status.Pass?
    requires mh in mhs
    ensures GetShardsForMultihash(AddMultihashesForShard(idx, mhs, sk, faults).index, mh, false) == Ok([sk])
  {
    var i :| 0 <= i < |mhs| && mhs[i] == mh;
  }

  /** Last writer wins: when two shards both contain a multihash, the index
      resolves it to the shard added second. */
  lemma LastWriterWins(idx: Index, mhs1: seq<Multihash>, sk1: ShardKey, mhs2: seq<Multihash>, sk2: ShardKey, mh: Multihash)
    requires mh in mhs1 && mh in mhs2
    ensures
      var first := AddMultihashesForShard(idx, mhs1, sk1, Faults(false, {}, Committed));
      var second := AddMultihashesForShard(first.index, mhs2, sk2, Faults(false, {}, Committed));
      second.status.Pass? && GetShardsForMultihash(second.index, mh, false) == Ok([sk2])
  {
    var first := AddMultihashesForShard(idx, mhs1, sk1, Faults(false, {}, Committed));
    AddThenGet(first.index, mhs2, sk2, Faults(false, {}, Committed), mh);
  }

  /** A failed add never changes the lookup of a multihash it was not adding, and
      one that fails before the commit changes no lookup at all. */
  lemma FailedAddInvisible(idx: Index, mhs: seq<Multihash>, sk: ShardKey, faults: Faults, mh: Multihash, getFails: bool)
    requires AddMultihashesForShard(idx, mhs, sk, faults).status.Fail?
    ensures mh !in mhs || AddMultihashesForShard(idx, mhs, sk, faults).status != Fail(CommitFailed) ==>
      GetShardsForMultihash(AddMultihashesForShard(idx, mhs, sk, faults).index, mh, getFails) == GetShardsForMultihash(idx, mh, getFails)
  {
    var r := AddMultihashesForShard(idx, mhs, sk, faults);
    if mh !in mhs || r.status != Fail(CommitFailed) {
      assert Lookup(r.index, mh) == Lookup(idx, mh);
    }
  }

  /** After a failed commit, each multihash of the call resolves either to the
      shard it had before or to the new shard. */
  lemma FailedCommitOldOrNew(idx: Index, mhs: seq<Multihash>, sk: ShardKey, faults: Faults, mh: Multihash)
    requires AddMultihashesForShard(idx, mhs, sk, faults).status == Fail(CommitFailed)
    requires mh in mhs
    ensures
      var got := GetShardsForMultihash(AddMultihashesForShard(idx, mhs, sk, faults).index, mh, false);
      got == GetShardsForMultihash(idx, mh, false) || got == Ok([sk])
  {
    var r := AddMultihashesForShard(idx, mhs, sk, faults);
    assert Lookup(r.index, mh) == Lookup(idx, mh) || Lookup(r.index, mh) == Some(sk);
  }

  /** Retrying after a failed commit repairs it: a successful second add leaves
      the same index as a first add that had succeeded. */
  lemma RetryAfterFailedCommit(idx: Index, mhs: seq<Multihash>, sk: ShardKey, applied: set<Multihash>)
    ensures
      var failed := AddMultihashesForShard(idx, mhs, sk, Faults(false, {}, CommitFailsAfter(applied)));
      var retried := AddMultihashesForShard(failed.index, mhs, sk, Faults(false, {}, Committed));
      var direct := AddMultihashesForShard(idx, mhs, sk, Faults(false, {}, Committed));
      failed.status == Fail(CommitFailed) && retried.status.Pass? && retried.index == direct.index
  {
    var failed := AddMultihashesForShard(idx, mhs, sk, Faults(false, {}, CommitFailsAfter(applied)));
    var retried := AddMultihashesForShard(failed.index, mhs, sk, Faults(false, {}, Committed));
    var direct := AddMultihashesForShard(idx, mhs, sk, Faults(false, {}, Committed));
    forall mh
      ensures Lookup(retried.index, mh) == Lookup(direct.index, mh)
    {
      if mh !in mhs {
        assert Lookup(failed.index, mh) == Lookup(idx, mh);
      } else {
        var i :| 0 <= i < |mhs| && mhs[i] == mh;
      }
    }
    LookupExtensional(retried.index, direct.index);
  }

  /** Two indexes that answer every lookup alike are equal. */
  lemma LookupExtensional(a: Index, b: Index)
    requires forall mh :: Lookup(a, mh) == Lookup(b, mh)
    ensures a == b
  {
    assert a.Keys == b.Keys by {
      forall mh ensures mh in a <==> mh in b {
        assert Lookup(a, mh) == Lookup(b, mh);
      }
    }
    forall mh | mh in a ensures a[mh] == b[mh] {
      assert Lookup(a, mh) == Lookup(b, mh);
    }
  }
}

=== FILE: jsnode.dfy ===
/** The bootstrap-address parsing of the browser node's `startNode`
    (libs/jsnode/node.go): a newline-separated list of addresses is split,
    trimmed, and appended to the default configuration. */
module JsNode {
  import opened Common
  import opened GoStrings

  /** The two lists of the light node's default configuration that the parser
      touches: P2P.BootstrapAddresses and Header.TrustedPeers. */
  datatype Config = Config(bootstrapAddresses: seq<string>, trustedPeers: seq<string>)

  /** Each piece with its surrounding white space trimmed. */
  function TrimAll(pieces: seq<string>): (ts: seq<string>)
    ensures |ts| == |pieces|
    ensures forall i :: 0 <= i < |pieces| ==> ts[i] == TrimSpace(pieces[i])
  {
    seq(|pieces|, i requires 0 <= i < |pieces| => TrimSpace(pieces[i]))
  }

  /** The loop's `len(addr) > 0` test. */
  predicate NonBlank(a: string)
  {
    |a| > 0
  }

  /** The addresses the input contributes: each piece trimmed, blank ones
      dropped, in input order. */
  function Cleaned(pieces: seq<string>): (r: seq<string>)
    ensures |r| <= |pieces|
    ensures forall a :: a in r ==> |a| > 0
  {
    if |pieces| == 0 then []
    else
      var init := pieces[..|pieces| - 1];
      var t := TrimSpace(pieces[|pieces| - 1]);
      Cleaned(init) + (if |t| > 0 then [t] else [])
  }

  /** Cleaning is the order-preserving filter of the trimmed pieces by the
      loop's non-blank test: every kept address is a trimmed piece, in input
      order, as often as it occurs. */
  lemma {:induction false} CleanedIsFilter(pieces: seq<string>)
    ensures Cleaned(pieces) == Filter(TrimAll(pieces), NonBlank)
  {
    if |pieces| > 0 {
      var init := pieces[..|pieces| - 1];
      var t := TrimSpace(pieces[|pieces| - 1]);
      TrimAllStep(pieces);
      CleanedIsFilter(init);
      FilterAppend(TrimAll(init), [t], NonBlank);
      FilterSingleton(t, NonBlank);
    }
  }

  /** Trimming one more piece appends that piece, trimmed. */
  lemma TrimAllStep(pieces: seq<string>)
    requires |pieces| > 0
    ensures TrimAll(pieces) == TrimAll(pieces[..|pieces| - 1]) + [TrimSpace(pieces[|pieces| - 1])]
  {
    var init := pieces[..|pieces| - 1];
    var all, before := TrimAll(pieces), TrimAll(init);
    forall k | 0 <= k < |init|
      ensures all[k] == before[k]
    {
      assert init[k] == pieces[k];
    }
  }

  /** No address is lost: every piece that is not blank after trimming is
      kept, trimmed. */
  lemma CleanedKeepsEveryAddress(pieces: seq<string>, i: nat)
    requires i < |pieces| && |TrimSpace(pieces[i])| > 0
    ensures TrimSpace(pieces[i]) in Cleaned(pieces)
  {
    CleanedIsFilter(pieces);
    assert TrimAll(pieces)[i] == TrimSpace(pieces[i]);
  }

  /** The addresses a whole input string contributes. */
  function Added(input: string): seq<string>
  {
    Cleaned(Split(input, '\n'))
  }

  /** One iteration of the loop as written: the address is appended to the
      bootstrap addresses, and the trusted peers become the new bootstrap
      addresses with the address appended once more. */
  function AddAddressAsWritten(cfg: Config, addr: string): Config
  {
    var boot := cfg.bootstrapAddresses + [addr];
    Config(boot, boot + [addr])
  }

  /** The configuration the loop as written leaves after the given addresses. */
  function ConfigAsWritten(defaults: Config, added: seq<string>): (cfg: Config)
    ensures cfg.bootstrapAddresses == defaults.bootstrapAddresses + added
    ensures |added| == 0 ==> cfg.trustedPeers == defaults.trustedPeers
    ensures |added| > 0 ==> cfg.trustedPeers == cfg.bootstrapAddresses + [added[|added| - 1]]
  {
    if |added| == 0 then defaults
    else
      var init := added[..|added| - 1];
      assert added == init + [added[|added| - 1]];
      AddAddressAsWritten(ConfigAsWritten(defaults, init), added[|added| - 1])
  }

  /** The parsing loop of `startNode`: split on newlines, trim each piece, and
      feed the non-blank ones to the configuration in order. */
  method ParseBootstrapAddresses(input: string, defaults: Config) returns (cfg: Config)
    ensures cfg == ConfigAsWritten(defaults, Added(input))
    ensures cfg.bootstrapAddresses == defaults.bootstrapAddresses + Added(input)
  {
    var pieces := Split(input, '\n');
    cfg := defaults;
    for i := 0 to |pieces|
      invariant cfg == ConfigAsWritten(defaults, Cleaned(pieces[..i]))
    {
      var addr := TrimSpace(pieces[i]);
      LoopStep(defaults, pieces, i);
      if |addr| > 0 {
        cfg := AddAddressAsWritten(cfg, addr);
      }
    }
    assert pieces[..|pieces|] == pieces;
  }

  /** One iteration of the loop as written, on the configuration after the
      first `i` pieces. */
  lemma LoopStep(defaults: Config, pieces: seq<string>, i: nat)
    requires i < |pieces|
    ensures
      var t := TrimSpace(pieces[i]);
      var before := ConfigAsWritten(defaults, Cleaned(pieces[..i]));
      ConfigAsWritten(defaults, Cleaned(pieces[..i + 1]))
        == if |t| > 0 then AddAddressAsWritten(before, t) else before
  {
    var t := TrimSpace(pieces[i]);
    CleanedStep(pieces, i);
    if |t| > 0 {
      AsWrittenStep(defaults, Cleaned(pieces[..i]), t);
    } else {
      assert Cleaned(pieces[..i]) + [] == Cleaned(pieces[..i]);
    }
  }

  /** Cleaning one more piece appends that piece, trimmed, unless it is blank. */
  lemma CleanedStep(pieces: seq<string>, i: nat)
    requires i < |pieces|
    ensures
      var t := TrimSpace(pieces[i]);
      Cleaned(pieces[..i + 1]) == Cleaned(pieces[..i]) + (if |t| > 0 then [t] else [])
  {
    assert pieces[..i + 1][..i] == pieces[..i];
  }

  /** The loop as written after one more address. */
  lemma AsWrittenStep(defaults: Config, added: seq<string>, addr: string)
    ensures ConfigAsWritten(defaults, added + [addr]) == AddAddressAsWritten(ConfigAsWritten(defaults, added), addr)
  {
    assert (added + [addr])[..|added|] == added;
  }

  /** As written, the last address always appears twice among the trusted
      peers once any address was given. */
  lemma TrustedPeersRepeatLastAddress(defaults: Config, added: seq<string>)
    requires |added| > 0
    ensures !NoDuplicates(ConfigAsWritten(defaults, added).trustedPeers)
  {
    var tp := ConfigAsWritten(defaults, added).trustedPeers;
    assert tp[|tp| - 2] == tp[|tp| - 1];
  }

  /** An input holding one trimmed address contributes exactly that address. */
  lemma AddedOfOneAddress(addr: string)
    requires |addr| > 0 && '\n' !in addr && !IsSpace(addr[0]) && !IsSpace(addr[|addr| - 1])
    ensures Added(addr) == [addr]
  {
    SplitPlain(addr, '\n');
    TrimmedIsFixed(addr);
    CleanedStep([addr], 0);
    assert [addr][..0] == [] && [addr][..1] == [addr];
  }

  /** A single address, already trimmed, ends up trusted twice. */
  lemma OneAddressTrustedTwice(defaults: Config, addr: string)
    requires |addr| > 0 && '\n' !in addr && !IsSpace(addr[0]) && !IsSpace(addr[|addr| - 1])
    ensures ConfigAsWritten(defaults, Added(addr)).trustedPeers == defaults.bootstrapAddresses + [addr, addr]
  {
    AddedOfOneAddress(addr);
    AsWrittenStep(defaults, [], addr);
    assert [] + [addr] == [addr];
  }

  /** One iteration as evidently intended: the address is appended to both
      lists. */
  function AddAddress(cfg: Config, addr: string): Config
  {
    Config(cfg.bootstrapAddresses + [addr], cfg.trustedPeers + [addr])
  }

  /** The configuration after the given addresses, as evidently intended: the
      defaults of each list followed by the added addresses. */
  function ConfigCorrected(defaults: Config, added: seq<string>): (cfg: Config)
    ensures cfg.bootstrapAddresses == defaults.bootstrapAddresses + added
    ensures cfg.trustedPeers == defaults.trustedPeers + added
  {
    if |added| == 0 then defaults
    else
      var init := added[..|added| - 1];
      assert added == init + [added[|added| - 1]];
      AddAddress(ConfigCorrected(defaults, init), added[|added| - 1])
  }

  /** As intended, every address is trusted exactly as often as it is given:
      distinct new addresses not already trusted leave no duplicates. */
  lemma CorrectedTrustsEachAddressOnce(defaults: Config, added: seq<string>)
    requires NoDuplicates(defaults.trustedPeers) && NoDuplicates(added)
    requires forall a :: a in added ==> a !in defaults.trustedPeers
    ensures NoDuplicates(ConfigCorrected(defaults, added).trustedPeers)
  {
    var d := defaults.trustedPeers;
    var tp := ConfigCorrected(defaults, added).trustedPeers;
    forall i, j | 0 <= i < j < |tp|
      ensures tp[i] != tp[j]
    {
      if j < |d| {
        assert tp[i] == d[i] && tp[j] == d[j];
      } else if i < |d| {
        assert tp[i] == d[i] && tp[j] == added[j - |d|];
        assert added[j - |d|] in added;
      } else {
        assert tp[i] == added[i - |d|] && tp[j] == added[j - |d|];
      }
    }
  }
}

=== FILE: keyring.dfy ===
/** First-run key generation (nodebuilder/keyring.go, GenerateKeys). The
    keyring is a map from key name to record. Listing it, deriving a key from a
    fresh mnemonic and computing a record's address are library operations; the
    outcome of each is an input. */
module Keyring {
  import opened Common

  /** The name of the account key created on first run. */
  const DefaultAccountName: string := "my_celes_key"

  /** A keyring record: its name and public key. */
  datatype Record = Record(name: string, pubKey: seq<byte>)

  type Ring = map<string, Record>

  /** What `ring.NewMnemonic` produces: a public key and the mnemonic it came
      from, or an error (in which case nothing is stored). */
  datatype NewKey = NewKey(pubKey: seq<byte>, mnemonic: string)

  datatype KeyringStep = KeyringStep(ring: Ring, status: Outcome<string>)

  /** `GenerateKeys`. `listErr` is a failure of `ring.List`, `generated` the
      outcome of `ring.NewMnemonic`, `addressOf` the outcome of
      `Record.GetAddress`. */
  function GenerateKeys(
    ring: Ring,
    listErr: Option<string>,
    generated: Result<NewKey, string>,
    addressOf: Record -> Result<seq<byte>, string>): (r: KeyringStep)
    // A failed listing is reported and nothing is created.
    ensures listErr.Some? ==> r == KeyringStep(ring, Fail(listErr.value))
    // A keyring that already holds a key is left alone.
    ensures listErr.None? && |ring| > 0 ==> r == KeyringStep(ring, Pass)
    // Otherwise exactly one record, the default account, is added.
    ensures listErr.None? && |ring| == 0 && generated.Err? ==> r == KeyringStep(ring, Fail(generated.error))
    ensures listErr.None? && |ring| == 0 && generated.Ok? ==>
      && r.ring.Keys == {DefaultAccountName}
      && r.ring[DefaultAccountName] == Record(DefaultAccountName, generated.value.pubKey)
    // Failing to compute the new key's address is reported, though the key stays.
    ensures listErr.None? && |ring| == 0 && generated.Ok? ==>
      var rec := Record(DefaultAccountName, generated.value.pubKey);
      r.status == (if addressOf(rec).Err? then Fail(addressOf(rec).error) else Pass)
  {
    if listErr.Some? then KeyringStep(ring, Fail(listErr.value))
    else if |ring| > 0 then KeyringStep(ring, Pass)
    else
      match generated
      case Err(e) => KeyringStep(ring, Fail(e))
      case Ok(key) =>
        var rec := Record(DefaultAccountName, key.pubKey);
        var ring' := ring[DefaultAccountName := rec];
        assert ring'.Keys == {DefaultAccountName};
        match addressOf(rec)
        case Err(e) => KeyringStep(ring', Fail(e))
        case Ok(_) => KeyringStep(ring', Pass)
  }

  /** A second call adds nothing: once GenerateKeys has left a key in the ring,
      calling it again with working listing changes nothing and succeeds. */
  lemma GenerateKeysIdempotent(
    ring: Ring, generated1: Result<NewKey, string>, addressOf1: Record -> Result<seq<byte>, string>,
    generated2: Result<NewKey, string>, addressOf2: Record -> Result<seq<byte>, string>)
    requires |GenerateKeys(ring, None, generated1, addressOf1).ring| > 0
    ensures
      var first := GenerateKeys(ring, None, generated1, addressOf1);
      GenerateKeys(first.ring, None, generated2, addressOf2) == KeyringStep(first.ring, Pass)
  {
  }

  /** No call ever removes or replaces a record. */
  lemma GenerateKeysOnlyAdds(
    ring: Ring, listErr: Option<string>, generated: Result<NewKey, string>,
    addressOf: Record -> Result<seq<byte>, string>, name: string)
    requires name in ring
    ensures
      var r := GenerateKeys(ring, listErr, generated, addressOf);
      name in r.ring && r.ring[name] == ring[name]
  {
  }
}

=== FILE: keystore.dfy ===
/** The types both keystores share (the Keystore interface of libs/keystore):
    key names, private keys, and the errors the keystores return. */
module Keystore {
  import opened Common

  /** A `KeyName`, the string a key is stored under. */
  type KeyName = string

  /** A `PrivKey`: the body of a private key. */
  datatype PrivKey = PrivKey(body: seq<byte>)

  datatype KeystoreError =
    | AlreadyExists(name: KeyName)     // "keystore: key '%s' already exists"
    | NotFound(name: KeyName)          // wraps ErrNotFound ("%w: %s")
    | KeyMissing(name: KeyName)        // "keystore: key '%s' not found", NOT wrapping ErrNotFound
    | CheckFailed(name: KeyName)       // a Stat failure other than "does not exist"
    | PermsTooRelaxed(name: KeyName)   // wraps the error of checkPerms
    | UnmarshalFailed(name: KeyName)
    | DeleteFailed(name: KeyName)      // "keystore: failed to delete key '%s'"
    | BadFileName(file: string)        // a directory entry that is not valid base32
    | ReadDirFailed

  /** `errors.Is(err, ErrNotFound)`. */
  predicate IsErrNotFound(e: KeystoreError)
  {
    e.NotFound?
  }
}

=== FILE: light_getter.dfy ===
/** The share getter of a light node (nodebuilder/share/constructors.go,
    lightGetter): a cascade of getters tried in order. */
module LightGetter {
  import opened Common

  datatype Getter = ShrexGetter | IpldGetter

  /** `lightGetter`: the share-exchange getter first when it is enabled, then
      the IPLD getter. */
  function LightGetter(useShareExchange: bool): (cascade: seq<Getter>)
    ensures |cascade| == (if useShareExchange then 2 else 1)
    ensures cascade[|cascade| - 1] == IpldGetter
    ensures ShrexGetter in cascade <==> useShareExchange
    ensures useShareExchange ==> cascade[0] == ShrexGetter
    ensures NoDuplicates(cascade)
  {
    var cascade := if useShareExchange then [ShrexGetter] else [];
    cascade + [IpldGetter]
  }

  /** Enabling share exchange only puts the share-exchange getter in front. */
  lemma ShareExchangeOnlyPrepends()
    ensures LightGetter(true) == [ShrexGetter] + LightGetter(false)
  {
  }
}

=== FILE: lighteds.dfy ===
/** Reading an extended data square back from a CAR file, and the parameters of
    the square store (share/lighteds/eds.go). A CAR file carries the row and
    column roots in its header, followed by the original (first-quadrant) shares
    as blocks. Erasure coding, NMT hashing and the CAR decoder are library code
    and appear as parameters. */
module LightEds {
  import opened Common

  type Hash = seq<byte>
  type Share = seq<byte>

  datatype Block = Block(rawData: seq<byte>)

  /** A CAR file as its reader sees it: the header's roots, then the blocks. */
  datatype CarFile = CarFile(roots: seq<Hash>, blocks: seq<Block>)

  /** An extended data square as `rsmt2d` returns it. */
  datatype Square = Square(width: nat, shares: seq<Share>)

  /** The library computations ReadEDS relies on. */
  datatype Codec = Codec(
    getData: seq<byte> -> Share,                      // share.GetData: strips the doubled namespace
    computeEds: (seq<Share>, nat) -> Option<Square>,  // rsmt2d.ComputeExtendedDataSquare for a width
    dataHash: Square -> Option<Hash>)                 // share.NewRoot(eds), then Hash()

  datatype EdsError =
    | CarHeaderInvalid                                // "share: reading car file"
    | ReadingNextEntry(index: nat)                    // "share: reading next car entry"
    | ComputingEds                                    // "share: computing eds"
    | RootFailed                                      // the error of share.NewRoot
    | IntegrityMismatch(imported: Hash, expected: Hash)

  /** The width of the original square: the header holds 2w row roots and 2w
      column roots, so `len(roots) / 4`. */
  function OdsWidth(car: CarFile): nat
  {
    |car.roots| / 4
  }

  /** The shares carried by a run of blocks, with the doubled namespace cut off. */
  function SharesOf(blocks: seq<Block>, c: Codec): (shares: seq<Share>)
    ensures |shares| == |blocks|
    ensures forall i :: 0 <= i < |blocks| ==> shares[i] == c.getData(blocks[i].rawData)
  {
    seq(|blocks|, i requires 0 <= i < |blocks| => c.getData(blocks[i].rawData))
  }

  /** `ReadEDS`: reads exactly w*w blocks (w the original width), recomputes the
      extended square and its data root, and returns the square only when that
      root equals `root`. `consumed` counts the blocks taken from the stream. */
  method ReadEDS(car: Option<CarFile>, root: Hash, c: Codec) returns (eds: Result<Square, EdsError>, consumed: nat)
    ensures car.None? ==> eds == Err(CarHeaderInvalid) && consumed == 0
    ensures car.Some? ==>
      var w := OdsWidth(car.value);
      consumed == (if |car.value.blocks| < w * w then |car.value.blocks| else w * w)
    ensures car.Some? && |car.value.blocks| < OdsWidth(car.value) * OdsWidth(car.value) ==>
      eds == Err(ReadingNextEntry(|car.value.blocks|))
    ensures eds.Ok? ==>
      && car.Some?
      && var w := OdsWidth(car.value);
      && consumed == w * w
      && c.computeEds(SharesOf(car.value.blocks[..w * w], c), w) == Some(eds.value)
      && c.dataHash(eds.value) == Some(root)
    ensures car.Some? && consumed == OdsWidth(car.value) * OdsWidth(car.value) ==>
      var w := OdsWidth(car.value);
      match c.computeEds(SharesOf(car.value.blocks[..w * w], c), w)
      case None => eds == Err(ComputingEds)
      case Some(sq) =>
        match c.dataHash(sq)
        case None => eds == Err(RootFailed)
        case Some(h) => eds == (if h == root then Ok(sq) else Err(IntegrityMismatch(h, root)))
  {
    if car.None? {
      return Err(CarHeaderInvalid), 0;
    }
    var file := car.value;
    var w := |file.roots| / 4;
    var squareSize := w * w;
    var shares: seq<Share> := [];
    consumed := 0;
    while consumed < squareSize
      invariant consumed <= squareSize && consumed <= |file.blocks|
      invariant shares == SharesOf(file.blocks[..consumed], c)
    {
      if consumed == |file.blocks| {
        return Err(ReadingNextEntry(consumed)), consumed;
      }
      var block := file.blocks[consumed];
      shares := shares + [c.getData(block.rawData)];
      consumed := consumed + 1;
    }
    var computed := c.computeEds(shares, w);
    if computed.None? {
      return Err(ComputingEds), consumed;
    }
    var dah := c.dataHash(computed.value);
    if dah.None? {
      return Err(RootFailed), consumed;
    }
    if dah.value != root {
      return Err(IntegrityMismatch(dah.value, root)), consumed;
    }
    return Ok(computed.value), consumed;
  }

  /** The configuration of the square store. `gcInterval` is a Go time.Duration. */
  datatype Parameters = Parameters(gcInterval: int, recentBlocksCacheSize: int, blockstoreCacheSize: int)

  datatype ParamError =
    | NegativeGcInterval           // "eds: GC interval cannot be negative"
    | RecentBlocksCacheNotPositive // "eds: recent blocks cache size must be positive"
    | BlockstoreCacheNotPositive   // "eds: blockstore cache size must be positive"

  /** `Parameters.Validate`: the first violated rule is reported. */
  function Validate(p: Parameters): (r: Outcome<ParamError>)
    ensures r.Pass? <==> p.gcInterval >= 0 && p.recentBlocksCacheSize >= 1 && p.blockstoreCacheSize >= 1
    ensures p.gcInterval < 0 ==> r == Fail(NegativeGcInterval)
    ensures p.gcInterval >= 0 && p.recentBlocksCacheSize < 1 ==> r == Fail(RecentBlocksCacheNotPositive)
    ensures p.gcInterval >= 0 && p.recentBlocksCacheSize >= 1 && p.blockstoreCacheSize < 1 ==>
      r == Fail(BlockstoreCacheNotPositive)
  {
    if p.gcInterval < 0 then Fail(NegativeGcInterval)
    else if p.recentBlocksCacheSize < 1 then Fail(RecentBlocksCacheNotPositive)
    else if p.blockstoreCacheSize < 1 then Fail(BlockstoreCacheNotPositive)
    else Pass
  }

  /** `DefaultParameters`: garbage collection off, 10 recent blocks and 128
      blockstore accessors cached; these defaults are valid. */
  function DefaultParameters(): (p: Parameters)
    ensures p.gcInterval == 0
    ensures p.recentBlocksCacheSize == 10 && p.blockstoreCacheSize == 128
    ensures Validate(p).Pass?
  {
    Parameters(0, 10, 128)
  }
}

=== FILE: map_keystore.dfy ===
/** The in-memory keystore (libs/keystore/map_keystore.go): a map from key names
    to private keys. Its mutex serialises the operations, so each one is a pure
    step from the old map to the new map. */
module MapKeystore {
  import opened Common
  import opened Keystore

  type Keys = map<KeyName, PrivKey>

  datatype Step = Step(keys: Keys, status: Outcome<KeystoreError>)

  /** `mapKeystore.Put`: stores a key under a new name; an existing name is refused. */
  function Put(m: Keys, n: KeyName, k: PrivKey): (r: Step)
    ensures n in m ==> r == Step(m, Fail(AlreadyExists(n)))
    ensures n !in m ==> r.status == Pass && r.keys == m[n := k]
    ensures n in r.keys && r.keys[n] == (if n in m then m[n] else k)
    ensures r.keys.Keys == m.Keys + {n}
  {
    if n in m then Step(m, Fail(AlreadyExists(n)))
    else Step(m[n := k], Pass)
  }

  /** `mapKeystore.Get`. */
  function Get(m: Keys, n: KeyName): (r: Result<PrivKey, KeystoreError>)
    ensures r.Ok? <==> n in m
    ensures r.Ok? ==> r.value == m[n]
    ensures r.Err? ==> IsErrNotFound(r.error) && r.error.name == n
  {
    if n !in m then Err(NotFound(n)) else Ok(m[n])
  }

  /** `mapKeystore.Delete`: removes one entry. A missing name is an error, but
      not one that wraps ErrNotFound. */
  function Delete(m: Keys, n: KeyName): (r: Step)
    ensures n !in m ==> r == Step(m, Fail(KeyMissing(n)))
    ensures n in m ==> r.status == Pass
    ensures r.keys.Keys == m.Keys - {n}
    ensures forall o :: o in r.keys ==> r.keys[o] == m[o]
    ensures r.status.Fail? ==> !IsErrNotFound(r.status.error)
  {
    if n !in m then Step(m, Fail(KeyMissing(n)))
    else Step(m - {n}, Pass)
  }

  /** `mapKeystore.List`: every stored name exactly once, in Go's (unspecified)
      map iteration order, which the arbitrary choice below stands for. */
  method List(m: Keys) returns (names: seq<KeyName>)
    ensures |names| == |m|
    ensures NoDuplicates(names)
    ensures forall n :: n in names <==> n in m
  {
    names := [];
    var rest := m.Keys;
    while rest != {}
      invariant rest <= m.Keys
      invariant forall n :: n in names <==> n in m.Keys - rest
      invariant NoDuplicates(names)
      invariant |names| + |rest| == |m.Keys|
      decreases |rest|
    {
      var n :| n in rest;
      NoDuplicatesAppend(names, n);
      names := names + [n];
      rest := rest - {n};
    }
  }

  /** A Put on a fresh name followed by a Get returns the key unchanged. */
  lemma PutThenGet(m: Keys, n: KeyName, k: PrivKey)
    requires n !in m
    ensures Put(m, n, k).status == Pass
    ensures Get(Put(m, n, k).keys, n) == Ok(k)
  {
  }

  /** A Get of another name is unaffected by Put and Delete. */
  lemma OtherNamesUnaffected(m: Keys, n: KeyName, o: KeyName, k: PrivKey)
    requires o != n
    ensures Get(Put(m, n, k).keys, o) == Get(m, o)
    ensures Get(Delete(m, n).keys, o) == Get(m, o)
  {
  }

  /** Put on a fresh name and then Delete of it restores the original map, so a
      keystore that was empty lists nothing again. */
  lemma PutThenDeleteRestores(m: Keys, n: KeyName, k: PrivKey)
    requires n !in m
    ensures Delete(Put(m, n, k).keys, n) == Step(m, Pass)
  {
    assert Put(m, n, k).keys - {n} == m;
  }

  /** The sequence of the keystore test: Put "test" into an empty keystore, Get
      it back, find one listed name, Delete it, find none. */
  method PutGetListDeleteScenario(k: PrivKey) returns (got: Result<PrivKey, KeystoreError>, before: seq<KeyName>, after: seq<KeyName>)
    ensures got == Ok(k)
    ensures before == ["test"]
    ensures after == []
  {
    var s1 := Put(map[], "test", k);
    got := Get(s1.keys, "test");
    before := List(s1.keys);
    var s2 := Delete(s1.keys, "test");
    assert s2.keys == map[];
    after := List(s2.keys);
    assert "test" in before;
    assert |before| == 1;
    assert before[0] == "test";
  }
}

=== FILE: multiaddr.dfy ===
/** Multiaddresses as the address code sees them: the encoded bytes and the
    list of protocol codes. Parsing a textual multiaddress is library code
    (`ma.NewMultiaddr`) and is passed in as a function. */
module Multiaddr {
  import opened Common

  /** A multiaddr protocol code (`ma.Protocol.Code`). */
  type Code = int

  // Protocol codes of the multiformats table.
  const P_IP4: Code := 0x0004
  const P_UDP: Code := 0x0111
  const P_QUIC_V1: Code := 0x01cd
  const P_WEBTRANSPORT: Code := 0x01d1
  const P_CERTHASH: Code := 0x01d2

  datatype Multiaddr = Multiaddr(bytes: seq<byte>, protocols: seq<Code>)

  /** `ma.NewMultiaddr`, one address at a time. */
  type Parser = string -> Option<Multiaddr>

  /** Parses every address in order, stopping at the first one that does not
      parse and reporting it. */
  function ParseEach(addrs: seq<string>, parse: Parser): (r: Result<seq<Multiaddr>, string>)
    ensures r.Ok? <==> forall i :: 0 <= i < |addrs| ==> parse(addrs[i]).Some?
    ensures r.Ok? ==> |r.value| == |addrs| && forall i :: 0 <= i < |addrs| ==> parse(addrs[i]) == Some(r.value[i])
    ensures r.Err? ==> exists i :: 0 <= i < |addrs| && r.error == addrs[i] && parse(addrs[i]).None? &&
                                  forall j :: 0 <= j < i ==> parse(addrs[j]).Some?
  {
    if |addrs| == 0 then Ok([])
    else
      match parse(addrs[0])
      case None => Err(addrs[0])
      case Some(m) =>
        match ParseEach(addrs[1..], parse)
        case Err(a) =>
          assert forall j :: 1 <= j < |addrs| ==> addrs[1..][j - 1] == addrs[j];
          Err(a)
        case Ok(ms) => Ok([m] + ms)
  }
}

=== FILE: namespace_retrieval.dfy ===
/** Reading the shares of one namespace from the local square store
    (share/eds/utils.go, RetrieveNamespaceFromStore). The store is the set of
    data roots it holds a shard for. Opening the shard's blockstore, collecting
    the namespace's shares and removing a shard are the store's own operations;
    their outcomes other than "no such shard" are inputs. The model records the
    calls made on the store as a trace of events. */
module NamespaceRetrieval {
  import opened Common

  type Hash = seq<byte>
  type Share = seq<byte>

  /** What an error wraps: share.ErrNotFound, or anything else. */
  datatype Cause = ShareNotFound | Other(msg: string)

  datatype RetrieveError =
    | InvalidNamespace(reason: string)   // the error of namespace.ValidateForData, as is
    | BlockstoreFailed(cause: Cause)     // "failed to retrieve blockstore from eds store: %w"
    | CollectFailed(cause: Cause)        // "failed to retrieve shares by namespace from store: %w"

  /** `errors.Is(err, share.ErrNotFound)`, which tells the caller to try the next getter. */
  predicate IsShareNotFound(e: RetrieveError)
  {
    !e.InvalidNamespace? && e.cause == ShareNotFound
  }

  /** How `CollectSharesByNamespace` can fail. */
  datatype CollectError = NodeNotFound | CollectOther(msg: string)

  datatype Event = OpenedBlockstore | RemovedShard | ClosedBlockstore

  datatype Retrieval = Retrieval(result: Result<seq<Share>, RetrieveError>, shards: set<Hash>, events: seq<Event>)

  /** `RetrieveNamespaceFromStore`. `nsCheck` is the namespace's validation,
      `openFault` a failure of opening an existing shard, `collected` what the
      collection over the opened blockstore yields, `removeFails` whether
      removing the shard fails. */
  function RetrieveNamespaceFromStore(
    nsCheck: Outcome<string>,
    shards: set<Hash>,
    root: Hash,
    openFault: Option<string>,
    collected: Result<seq<Share>, CollectError>,
    removeFails: bool): (r: Retrieval)
    // An invalid namespace is reported before the store is touched.
    ensures nsCheck.Fail? ==> r == Retrieval(Err(InvalidNamespace(nsCheck.error)), shards, [])
    // The store's ErrNotFound becomes share.ErrNotFound.
    ensures nsCheck.Pass? && root !in shards ==> r == Retrieval(Err(BlockstoreFailed(ShareNotFound)), shards, [])
    ensures nsCheck.Pass? && root in shards && openFault.Some? ==>
      r == Retrieval(Err(BlockstoreFailed(Other(openFault.value))), shards, [])
    // The blockstore is opened exactly when validation, lookup and open succeed.
    ensures (OpenedBlockstore in r.events) <==> nsCheck.Pass? && root in shards && openFault.None?
    // Once the blockstore is open it is closed, exactly once and last.
    ensures (OpenedBlockstore in r.events) <==> (ClosedBlockstore in r.events)
    ensures OpenedBlockstore in r.events ==>
      && r.events[0] == OpenedBlockstore
      && r.events[|r.events| - 1] == ClosedBlockstore
      && ClosedBlockstore !in r.events[..|r.events| - 1]
    // The blockstore is opened once: without a removal it is opened and closed.
    ensures OpenedBlockstore in r.events && RemovedShard !in r.events ==>
      r.events == [OpenedBlockstore, ClosedBlockstore]
    // A missing node means a corrupt shard: remove it and report share.ErrNotFound.
    ensures (RemovedShard in r.events) <==>
      nsCheck.Pass? && root in shards && openFault.None? && collected == Err(NodeNotFound)
    ensures RemovedShard in r.events ==>
      && r.events == [OpenedBlockstore, RemovedShard, ClosedBlockstore]
      && r.result == Err(CollectFailed(ShareNotFound))
      && r.shards == (if removeFails then shards else shards - {root})
    ensures RemovedShard !in r.events ==> r.shards == shards
    // Success returns the collected shares unchanged; other failures pass through.
    ensures r.result.Ok? <==> nsCheck.Pass? && root in shards && openFault.None? && collected.Ok?
    ensures r.result.Ok? ==> r.result.value == collected.value
    ensures nsCheck.Pass? && root in shards && openFault.None? && collected.Err? && collected.error.CollectOther? ==>
      r.result == Err(CollectFailed(Other(collected.error.msg)))
  {
    if nsCheck.Fail? then Retrieval(Err(InvalidNamespace(nsCheck.error)), shards, [])
    else if root !in shards then Retrieval(Err(BlockstoreFailed(ShareNotFound)), shards, [])
    else if openFault.Some? then Retrieval(Err(BlockstoreFailed(Other(openFault.value))), shards, [])
    else
      match collected
      case Ok(shares) => Retrieval(Ok(shares), shards, [OpenedBlockstore, ClosedBlockstore])
      case Err(NodeNotFound) =>
        var after := if removeFails then shards else shards - {root};
        Retrieval(Err(CollectFailed(ShareNotFound)), after, [OpenedBlockstore, RemovedShard, ClosedBlockstore])
      case Err(CollectOther(msg)) =>
        Retrieval(Err(CollectFailed(Other(msg))), shards, [OpenedBlockstore, ClosedBlockstore])
  }

  /** The caller is told to fall back to the next getter exactly when the shard
      is absent, or when it turned out to be corrupt. */
  lemma NotFoundIffAbsentOrCorrupt(
    nsCheck: Outcome<string>, shards: set<Hash>, root: Hash, openFault: Option<string>,
    collected: Result<seq<Share>, CollectError>, removeFails: bool)
    ensures
      var r := RetrieveNamespaceFromStore(nsCheck, shards, root, openFault, collected, removeFails);
      (r.result.Err? && IsShareNotFound(r.result.error)) <==>
        nsCheck.Pass? && (root !in shards || (openFault.None? && collected == Err(NodeNotFound)))
  {
  }

  /** Once a corrupt shard has been removed, the next retrieval of the same root
      answers share.ErrNotFound without opening anything. */
  lemma CorruptShardIsNotServedAgain(
    shards: set<Hash>, root: Hash, collected2: Result<seq<Share>, CollectError>, openFault2: Option<string>)
    requires root in shards
    ensures
      var first := RetrieveNamespaceFromStore(Pass, shards, root, None, Err(NodeNotFound), false);
      var second := RetrieveNamespaceFromStore(Pass, first.shards, root, openFault2, collected2, false);
      second == Retrieval(Err(BlockstoreFailed(ShareNotFound)), shards - {root}, [])
  {
  }
}

=== FILE: peer_metrics.dfy ===
/** The metrics stub of the peer manager when metrics are compiled out
    (share/p2p/peers/no_metrics.go): a validation observer that passes the
    validator's verdict through, the label it computes for that verdict, and
    the pool-status model drawn in the file's comment. */
module PeerMetrics {
  /** A `pubsub.ValidationResult`, an int in the pubsub library. */
  type ValidationResult = int

  const ValidationAccept: ValidationResult := 0
  const ValidationReject: ValidationResult := 1
  const ValidationIgnore: ValidationResult := 2

  /** The label the observer computes for a verdict. */
  function ResultLabel(res: ValidationResult): (s: string)
    ensures s == "accept" <==> res == ValidationAccept
    ensures s == "reject" <==> res == ValidationReject
    ensures s == "ignore" <==> res == ValidationIgnore
    ensures s == "unknown" <==> res != ValidationAccept && res != ValidationReject && res != ValidationIgnore
  {
    if res == ValidationAccept then "accept"
    else if res == ValidationReject then "reject"
    else if res == ValidationIgnore then "ignore"
    else "unknown"
  }

  /** The three known verdicts get three different labels. */
  lemma KnownLabelsDistinct(a: ValidationResult, b: ValidationResult)
    requires ResultLabel(a) == ResultLabel(b) && ResultLabel(a) != "unknown"
    ensures a == b
  {
  }

  type PeerId = string

  /** A `shrexsub.Notification`: a new block's data hash and height. */
  datatype Notification = Notification(dataHash: seq<int>, height: nat)

  type Validator = (PeerId, Notification) -> ValidationResult

  /** One call of the observed validator: the verdict returned and the label
      computed alongside it (which is only printed). */
  datatype Observation = Observation(result: ValidationResult, resultLabel: string)

  /** `metrics.validationObserver`, applied to one message. */
  function Observe(validator: Validator, id: PeerId, n: Notification): (o: Observation)
    ensures o.result == validator(id, n)
    ensures o.resultLabel == "unknown" <==> validator(id, n) !in {ValidationAccept, ValidationReject, ValidationIgnore}
  {
    var res := validator(id, n);
    Observation(res, ResultLabel(res))
  }

  /** Wrapping a validator in the observer does not change what the pubsub
      router decides: two validators that agree give observers that agree. */
  lemma ObserverIsTransparent(v1: Validator, v2: Validator, id: PeerId, n: Notification)
    requires v1(id, n) == v2(id, n)
    ensures Observe(v1, id, n) == Observe(v2, id, n)
  {
  }

  /** The status of a peer pool. */
  datatype PoolStatus = Created | Validated | Synced | Blacklisted

  /** The label each status is reported under. */
  function StatusLabel(s: PoolStatus): (l: string)
    ensures |l| > 0
  {
    match s
    case Created => "created"
    case Validated => "validated"
    case Synced => "synced"
    case Blacklisted => "blacklisted"
  }

  /** No two statuses share a label. */
  lemma StatusLabelsDistinct(a: PoolStatus, b: PoolStatus)
    requires StatusLabel(a) == StatusLabel(b)
    ensures a == b
  {
  }

  /** The transitions of the diagram: created to validated or blacklisted,
      validated to synced. */
  predicate Edge(a: PoolStatus, b: PoolStatus)
  {
    || (a == Created && b == Validated)
    || (a == Created && b == Blacklisted)
    || (a == Validated && b == Synced)
  }

  /** The statuses a pool can move to next. */
  function Successors(a: PoolStatus): (r: set<PoolStatus>)
    ensures forall b :: b in r <==> Edge(a, b)
  {
    match a
    case Created => {Validated, Blacklisted}
    case Validated => {Synced}
    case Synced => {}
    case Blacklisted => {}
  }

  /** Synced and blacklisted are final; created has no way in. */
  lemma FinalAndInitialStatuses(a: PoolStatus)
    ensures Successors(Synced) == {} && Successors(Blacklisted) == {}
    ensures !Edge(a, Created)
  {
    assert forall b :: b !in Successors(Synced);
    assert forall b :: b !in Successors(Blacklisted);
  }

  /** A run of statuses, each a transition of the diagram from the one before. */
  predicate IsPath(p: seq<PoolStatus>)
  {
    |p| >= 1 && forall i :: 0 <= i < |p| - 1 ==> Edge(p[i], p[i + 1])
  }

  /** The distance of a status from created in the diagram. */
  function Depth(s: PoolStatus): nat
  {
    match s
    case Created => 0
    case Validated => 1
    case Blacklisted => 1
    case Synced => 2
  }

  /** Every step of a path goes one level deeper. */
  lemma {:induction false} PathDeepens(p: seq<PoolStatus>)
    requires IsPath(p)
    ensures Depth(p[|p| - 1]) == Depth(p[0]) + |p| - 1
  {
    if |p| > 1 {
      var q := p[..|p| - 1];
      assert IsPath(q) by {
        assert forall i :: 0 <= i < |q| ==> q[i] == p[i];
      }
      PathDeepens(q);
      assert Edge(p[|p| - 2], p[|p| - 1]);
    }
  }

  /** The diagram has no cycles: no run of statuses is longer than three. */
  lemma PathsAreShort(p: seq<PoolStatus>)
    requires IsPath(p)
    ensures |p| <= 3
  {
    PathDeepens(p);
  }

  /** A pool reaches synced from created only through validated, and never
      after being blacklisted. */
  lemma SyncedOnlyThroughValidated(p: seq<PoolStatus>)
    requires IsPath(p) && p[0] == Created && p[|p| - 1] == Synced
    ensures p == [Created, Validated, Synced]
    ensures Blacklisted !in p
  {
    PathDeepens(p);
    assert Edge(p[0], p[1]) && Edge(p[1], p[2]);
  }
}

=== FILE: wasmfs.dfy ===
/** A file system whose files are byte strings kept in one browser IndexedDB
    object store, keyed by file name (libs/wasmfs/wasmfs.go). The object store is
    a map from names to contents; a file handle is a value that remembers its
    name, its position and whether it was closed. Every operation takes the store
    and the handle and returns the new ones together with Go's results. */
module WasmFs {
  import opened Common

  /** The IndexedDB object store: file name to file contents. */
  type Store = map<string, seq<byte>>

  /** The `flag` argument of `OpenFile`, a Go `int`. */
  type OpenFlags = bv64

  // Open flags with the values of Go's syscall package on js/wasm.
  const O_RDONLY: OpenFlags := 0x0
  const O_WRONLY: OpenFlags := 0x1
  const O_RDWR: OpenFlags := 0x2
  const O_CREATE: OpenFlags := 0x40
  const O_EXCL: OpenFlags := 0x80
  const O_TRUNC: OpenFlags := 0x200
  const O_APPEND: OpenFlags := 0x400
  /** `O_RDWR | O_WRONLY`: the access modes that allow writing. */
  const WriteModes: OpenFlags := 0x3

  // `whence` values of io.Seeker.
  const SeekStart: int := 0
  const SeekCurrent: int := 1
  const SeekEnd: int := 2

  datatype FsError =
    | ErrFileClosed      // afero.ErrFileClosed
    | ErrExist           // os.ErrExist
    | ErrNotExist        // os.ErrNotExist
    | EOF                // io.EOF
    | ErrUnexpectedEOF   // io.ErrUnexpectedEOF
    | ErrOutOfRange      // afero.ErrOutOfRange
    | ErrReadOnlyHandle  // the *os.PathError "file handle is read only"
    | EPERM              // syscall.EPERM
    | SlicePanic         // the Go runtime panics on a negative slice bound

  /** An open file handle. `at` is the position shared by Read, Write and Seek. */
  datatype File = File(name: string, at: int, closed: bool, readOnly: bool)

  datatype FileInfo = FileInfo(name: string, size: nat)

  datatype OpenResult = OpenResult(store: Store, file: Result<File, FsError>)
  datatype ReadResult = ReadResult(file: File, buf: seq<byte>, n: Result<nat, FsError>)
  datatype WriteResult = WriteResult(store: Store, file: File, n: Result<nat, FsError>)
  datatype SeekResult = SeekResult(file: File, pos: Result<int, FsError>)
  datatype TruncateResult = TruncateResult(store: Store, status: Outcome<FsError>)

  /** `flag & bit > 0`. */
  predicate HasFlag(flag: OpenFlags, bit: OpenFlags)
  {
    flag & bit != 0
  }

  /** `readOnly := flag&os.O_RDONLY > 0`. Since O_RDONLY is zero this never holds. */
  predicate IsReadOnly(flag: OpenFlags)
  {
    HasFlag(flag, O_RDONLY)
  }

  /** What `getBytes` returns: the stored bytes, or nothing for a missing key. */
  function Contents(s: Store, name: string): seq<byte>
  {
    if name in s then s[name] else []
  }

  /** `wasmfs.OpenFile`: checks existence against O_EXCL and O_CREATE, then applies
      O_APPEND (seek to the end) and O_TRUNC (truncate to zero when writable).
      Opening with O_CREATE alone does not add the key to the store. */
  function OpenFile(s: Store, name: string, flag: OpenFlags): (r: OpenResult)
    ensures name in s && HasFlag(flag, O_EXCL) ==> r == OpenResult(s, Err(ErrExist))
    ensures name !in s && !HasFlag(flag, O_CREATE) ==> r == OpenResult(s, Err(ErrNotExist))
    ensures r.file.Ok? <==> (if name in s then !HasFlag(flag, O_EXCL) else HasFlag(flag, O_CREATE))
    ensures r.file.Ok? ==>
      && r.file.value.name == name
      && !r.file.value.closed
      && !r.file.value.readOnly
      && r.file.value.at == (if HasFlag(flag, O_APPEND) then |Contents(s, name)| else 0)
    ensures r.file.Ok? && HasFlag(flag, O_TRUNC) && HasFlag(flag, WriteModes) ==>
      r.store == s[name := []]
    ensures !(r.file.Ok? && HasFlag(flag, O_TRUNC) && HasFlag(flag, WriteModes)) ==>
      r.store == s
  {
    var present := name in s;
    if present && HasFlag(flag, O_EXCL) then OpenResult(s, Err(ErrExist))
    else if !present && !HasFlag(flag, O_CREATE) then OpenResult(s, Err(ErrNotExist))
    else
      var f := File(name, 0, false, IsReadOnly(flag));
      // Seek and Truncate cannot fail on a handle that is not closed.
      var f1 := if HasFlag(flag, O_APPEND) then SeekToEnd(s, f) else f;
      if HasFlag(flag, O_TRUNC) && HasFlag(flag, WriteModes) then
        OpenResult(Truncate(s, f1, 0).store, Ok(f1))
      else
        OpenResult(s, Ok(f1))
  }

  /** The handle after `Seek(0, io.SeekEnd)` on a handle that is not closed. */
  function SeekToEnd(s: Store, f: File): (g: File)
    requires !f.closed
    ensures g == f.(at := |Contents(s, f.name)|)
  {
    Seek(s, f, 0, SeekEnd).file
  }

  /** `wasmfs.Create`. */
  function Create(s: Store, name: string): (r: OpenResult)
    ensures r.file.Ok?
    ensures r.store == s[name := []]
    ensures r.file.value == File(name, 0, false, false)
  {
    OpenFile(s, name, O_RDWR | O_CREATE | O_TRUNC)
  }

  /** `wasmfs.Open`: opens with O_RDONLY, which still yields a writable handle. */
  function Open(s: Store, name: string): (r: OpenResult)
    ensures r.store == s
    ensures r.file.Ok? <==> name in s
    ensures name !in s ==> r.file == Err(ErrNotExist)
    ensures r.file.Ok? ==> r.file.value == File(name, 0, false, false)
  {
    OpenFile(s, name, O_RDONLY)
  }

  /** `wasmfs.Remove`: deletes the key; deleting a missing key is not an error. */
  function Remove(s: Store, name: string): (r: Store)
    ensures name !in r
    ensures forall other :: other != name ==> (other in r <==> other in s)
    ensures forall other :: other != name ==> Contents(r, other) == Contents(s, other)
  {
    s - {name}
  }

  /** `wasmfs.Mkdir` and `MkdirAll`: keys carry the full path, so nothing happens. */
  function Mkdir(s: Store, name: string): (r: (Store, Outcome<FsError>))
    ensures r == (s, Pass)
  {
    (s, Pass)
  }

  /** `wasmfs.Rename`, `Chmod`, `Chown` and `Chtimes` are refused. */
  function Rename(s: Store, oldName: string, newName: string): (r: (Store, Outcome<FsError>))
    ensures r == (s, Fail(EPERM))
  {
    (s, Fail(EPERM))
  }

  /** The file part of `filepath.Split` on js/wasm, whose separator is '/':
      everything after the last '/'. This is what the `Name` of the in-memory
      file info returns. */
  function BaseName(path: string): (b: string)
    ensures |b| <= |path| && b == path[|path| - |b|..]
    ensures '/' !in b
    ensures |b| < |path| ==> path[|path| - |b| - 1] == '/'
  {
    if |path| == 0 || path[|path| - 1] == '/' then ""
    else
      var init := path[..|path| - 1];
      var b := BaseName(init);
      assert path[|path| - |b| - 1..] == init[|init| - |b|..] + [path[|path| - 1]];
      b + [path[|path| - 1]]
  }

  /** `wasmfs.Stat` by name describes a fresh, empty in-memory file named by
      the base name of `name`: it never consults the store, so it never reports
      a missing file. */
  function StatName(s: Store, name: string): (r: Result<FileInfo, FsError>)
    ensures r.Ok? && r.value.size == 0
    ensures r.value.name == BaseName(name)
  {
    Ok(FileInfo(BaseName(name), 0))
  }

  /** The base name of a directory prefix followed by a name without '/' is
      that name. */
  lemma {:induction false} BaseNameAfter(dir: string, name: string)
    requires '/' !in name
    requires |dir| == 0 || dir[|dir| - 1] == '/'
    ensures BaseName(dir + name) == name
    decreases |name|
  {
    var p := dir + name;
    if |name| == 0 {
      assert p == dir;
    } else {
      var init, last := name[..|name| - 1], name[|name| - 1];
      assert name == init + [last];
      assert '/' !in init && last != '/';
      assert p == (dir + init) + [last];
      BaseNameAfter(dir, init);
      BaseNameStep(dir + init, last);
    }
  }

  /** A character other than '/' extends the base name. */
  lemma BaseNameStep(path: string, c: char)
    requires c != '/'
    ensures BaseName(path + [c]) == BaseName(path) + [c]
  {
    assert (path + [c])[..|path|] == path;
  }

  /** A name without '/' is its own base name; under a directory only the last
      element is reported. */
  lemma BaseNameExamples(name: string)
    requires '/' !in name
    ensures BaseName(name) == name
    ensures BaseName("keys/" + name) == name
  {
    BaseNameAfter("", name);
    assert "" + name == name;
    BaseNameAfter("keys/", name);
  }

  /** `File.Close`: marks the handle closed; closing twice is fine. */
  function Close(f: File): (r: (File, Outcome<FsError>))
    ensures r.0 == f.(closed := true) && r.1 == Pass
  {
    (f.(closed := true), Pass)
  }

  /** `File.Stat`: the name and the current length; it does not look at `closed`. */
  function Stat(s: Store, f: File): (r: Result<FileInfo, FsError>)
    ensures r.Ok? && r.value.name == f.name && r.value.size == |Contents(s, f.name)|
  {
    Ok(FileInfo(f.name, |Contents(s, f.name)|))
  }

  /** `File.Read` into a buffer `b`: copies up to |b| bytes from the position,
      overwrites that prefix of `b` and advances the position by the count. */
  function Read(s: Store, f: File, b: seq<byte>): (r: ReadResult)
    ensures r.n.Err? ==> r.file == f && r.buf == b
    ensures f.closed ==> r.n == Err(ErrFileClosed)
    ensures !f.closed && |b| > 0 && f.at == |Contents(s, f.name)| ==> r.n == Err(EOF)
    ensures !f.closed && f.at > |Contents(s, f.name)| ==> r.n == Err(ErrUnexpectedEOF)
    ensures !f.closed && f.at < 0 ==> r.n == Err(SlicePanic)
    ensures r.n.Ok? <==>
      var data := Contents(s, f.name);
      !f.closed && 0 <= f.at <= |data| && !(|b| > 0 && f.at == |data|)
    ensures r.n.Ok? ==>
      var data := Contents(s, f.name);
      && !f.closed && 0 <= f.at <= |data|
      && r.n.value == Min(|b|, |data| - f.at)
      && r.file == f.(at := f.at + r.n.value)
      && |r.buf| == |b|
      && (forall i :: 0 <= i < r.n.value ==> r.buf[i] == data[f.at + i])
      && (forall i :: r.n.value <= i < |b| ==> r.buf[i] == b[i])
  {
    if f.closed then ReadResult(f, b, Err(ErrFileClosed))
    else
      var data := Contents(s, f.name);
      if |b| > 0 && f.at == |data| then ReadResult(f, b, Err(EOF))
      else if f.at > |data| then ReadResult(f, b, Err(ErrUnexpectedEOF))
      else if f.at < 0 then ReadResult(f, b, Err(SlicePanic))
      else
        var n := if |data| - f.at >= |b| then |b| else |data| - f.at;
        ReadResult(f.(at := f.at + n), data[f.at..f.at + n] + b[n..], Ok(n))
  }

  function Min(a: int, b: int): int
  {
    if a <= b then a else b
  }

  function Max(a: int, b: int): int
  {
    if a <= b then b else a
  }

  /** The contents after writing `b` at position `cur` of `data`, exactly as
      `File.Write` assembles it (zero fill beyond the end, tail kept). */
  function Splice(data: seq<byte>, cur: nat, b: seq<byte>): (d: seq<byte>)
    ensures |d| == Max(|data|, cur + |b|)
    ensures forall i :: 0 <= i < |b| ==> d[cur + i] == b[i]
    ensures forall i :: 0 <= i < Min(cur, |data|) ==> d[i] == data[i]
    ensures forall i :: |data| <= i < cur ==> d[i] == 0
    ensures forall i :: cur + |b| <= i < |data| ==> d[i] == data[i]
  {
    var n := |b|;
    var tail := if n + cur < |data| then data[n + cur..] else [];
    if cur - |data| > 0 then data + (Zeros(cur - |data|) + b) + tail
    else data[..cur] + b + tail
  }

  /** `File.Write`: stores `b` at the position and returns |b|, but leaves the
      position where it was. Closed and read-only handles are refused. */
  function Write(s: Store, f: File, b: seq<byte>): (r: WriteResult)
    ensures r.file == f
    ensures r.n.Err? ==> r.store == s
    ensures f.closed ==> r.n == Err(ErrFileClosed)
    ensures !f.closed && f.readOnly ==> r.n == Err(ErrReadOnlyHandle)
    ensures !f.closed && !f.readOnly && f.at < 0 ==> r.n == Err(SlicePanic)
    ensures r.n.Ok? <==> !f.closed && !f.readOnly && f.at >= 0
    ensures r.n.Ok? ==>
      var data := Contents(s, f.name);
      var d := Contents(r.store, f.name);
      && r.n.value == |b|
      && f.name in r.store
      && (forall other :: other != f.name ==> (other in r.store <==> other in s))
      && (forall other :: other != f.name ==> Contents(r.store, other) == Contents(s, other))
      && |d| == Max(|data|, f.at + |b|)
      && d[f.at..f.at + |b|] == b
      && d[..Min(f.at, |data|)] == data[..Min(f.at, |data|)]
      && (forall i :: |data| <= i < f.at ==> d[i] == 0)
      && d[f.at + |b|..] == (if f.at + |b| < |data| then data[f.at + |b|..] else [])
  {
    if f.closed then WriteResult(s, f, Err(ErrFileClosed))
    else if f.readOnly then WriteResult(s, f, Err(ErrReadOnlyHandle))
    else if f.at < 0 then WriteResult(s, f, Err(SlicePanic))
    else
      var d := Splice(Contents(s, f.name), f.at, b);
      assert d[f.at..f.at + |b|] == b;
      WriteResult(s[f.name := d], f, Ok(|b|))
  }

  /** `File.ReadAt`: moves the position to `off`, then reads. */
  function ReadAt(s: Store, f: File, p: seq<byte>, off: int): (r: ReadResult)
    ensures r == Read(s, f.(at := off), p)
    ensures r.n.Err? ==> r.file.at == off
  {
    Read(s, f.(at := off), p)
  }

  /** `File.WriteAt`: moves the position to `off`, then writes; the handle keeps
      `off` as its position afterwards. */
  function WriteAt(s: Store, f: File, b: seq<byte>, off: int): (r: WriteResult)
    ensures r == Write(s, f.(at := off), b)
    ensures r.file.at == off
  {
    Write(s, f.(at := off), b)
  }

  /** `File.Seek`: an unknown `whence` leaves the position alone and reports it. */
  function Seek(s: Store, f: File, offset: int, whence: int): (r: SeekResult)
    ensures f.closed ==> r == SeekResult(f, Err(ErrFileClosed))
    ensures !f.closed ==>
      && r.pos == Ok(r.file.at)
      && r.file == f.(at := r.file.at)
      && r.file.at == (if whence == SeekStart then offset
                       else if whence == SeekCurrent then f.at + offset
                       else if whence == SeekEnd then |Contents(s, f.name)| + offset
                       else f.at)
  {
    if f.closed then SeekResult(f, Err(ErrFileClosed))
    else
      var at :=
        if whence == SeekStart then offset
        else if whence == SeekCurrent then f.at + offset
        else if whence == SeekEnd then |Contents(s, f.name)| + offset
        else f.at;
      SeekResult(f.(at := at), Ok(at))
  }

  /** `File.Truncate`: zero-pads or cuts the contents to `size`. It does not
      consult `readOnly`. */
  function Truncate(s: Store, f: File, size: int): (r: TruncateResult)
    ensures f.closed ==> r == TruncateResult(s, Fail(ErrFileClosed))
    ensures !f.closed && size < 0 ==> r == TruncateResult(s, Fail(ErrOutOfRange))
    ensures r.status.Pass? <==> !f.closed && size >= 0
    ensures r.status.Pass? ==>
      var data := Contents(s, f.name);
      var d := Contents(r.store, f.name);
      && f.name in r.store
      && (forall other :: other != f.name ==> (other in r.store <==> other in s))
      && (forall other :: other != f.name ==> Contents(r.store, other) == Contents(s, other))
      && |d| == size
      && d[..Min(size, |data|)] == data[..Min(size, |data|)]
      && (forall i :: |data| <= i < size ==> d[i] == 0)
  {
    if f.closed then TruncateResult(s, Fail(ErrFileClosed))
    else if size < 0 then TruncateResult(s, Fail(ErrOutOfRange))
    else
      var data := Contents(s, f.name);
      var d := if size > |data| then data + Zeros(size - |data|) else data[..size];
      TruncateResult(s[f.name := d], Pass)
  }

  /** Removing a file that Create just made gives back the store as it was. */
  lemma RemoveUndoesCreate(s: Store, name: string)
    requires name !in s
    ensures Remove(Create(s, name).store, name) == s
  {
    assert s[name := []] - {name} == s;
  }

  /** Remove touches one key: every other name opens exactly as before, empty
      files included. */
  lemma RemoveKeepsOtherFiles(s: Store, name: string, other: string)
    requires other != name
    ensures Open(Remove(s, name), other) == OpenResult(Remove(s, name), Open(s, other).file)
  {
  }

  /** Reading an open handle at a position inside the file succeeds with as
      many bytes as fit, rather than reporting EOF. */
  lemma ReadInsideFileSucceeds(s: Store, f: File, b: seq<byte>)
    requires !f.closed && f.name in s && 0 <= f.at < |s[f.name]|
    ensures Read(s, f, b).n == Ok(Min(|b|, |s[f.name]| - f.at))
  {
  }

  /** A handle from `Open` (flag O_RDONLY) on an existing file accepts writes:
      the read-only check in Write can never fire for handles from OpenFile. */
  lemma OpenedForReadingStillWrites(s: Store, name: string, b: seq<byte>)
    requires name in s
    ensures Open(s, name).file.Ok?
    ensures Write(s, Open(s, name).file.value, b).n == Ok(|b|)
  {
  }

  /** Once closed, a handle refuses reads, writes, seeks and truncation, but
      `Stat` still describes the file, and the store is untouched. */
  lemma ClosedHandleRefusesUse(s: Store, f: File, b: seq<byte>, offset: int, whence: int, size: int)
    ensures
      var c := Close(f).0;
      && Read(s, c, b).n == Err(ErrFileClosed)
      && Write(s, c, b) == WriteResult(s, c, Err(ErrFileClosed))
      && Seek(s, c, offset, whence).pos == Err(ErrFileClosed)
      && Truncate(s, c, size) == TruncateResult(s, Fail(ErrFileClosed))
      && Stat(s, c) == Stat(s, f)
  {
  }

  /** `Stat` by name and `Stat` on a handle disagree about a non-empty file:
      the first always reports size zero. */
  lemma StatByNameIgnoresContents(s: Store, f: File)
    requires f.name in s && |s[f.name]| > 0
    ensures StatName(s, f.name).value.size == 0
    ensures Stat(s, f).value.size == |s[f.name]| > 0
  {
  }

  /** Seeking from the start and then reading is ReadAt at that offset. */
  lemma SeekThenReadIsReadAt(s: Store, f: File, p: seq<byte>, off: int)
    requires !f.closed
    ensures Seek(s, f, off, SeekStart).pos == Ok(off)
    ensures Read(s, Seek(s, f, off, SeekStart).file, p) == ReadAt(s, f, p, off)
  {
  }

  /** Seeking to the end and then writing appends: the old contents followed
      by the written bytes. */
  lemma SeekEndThenWriteAppends(s: Store, f: File, b: seq<byte>)
    requires !f.closed && !f.readOnly
    ensures
      var g := Seek(s, f, 0, SeekEnd).file;
      var w := Write(s, g, b);
      w.n == Ok(|b|) && Contents(w.store, f.name) == Contents(s, f.name) + b
  {
    var data := Contents(s, f.name);
    var g := Seek(s, f, 0, SeekEnd).file;
    var d := Contents(Write(s, g, b).store, f.name);
    assert d[..|data|] == data;
    assert d[|data|..] == b;
    assert d == d[..|data|] + d[|data|..];
  }

  /** Creating a file, writing `b` at offset 0 and reading |b| bytes back at
      offset 0 returns `b`. */
  lemma {:induction false} CreateWriteReadRoundTrip(s: Store, name: string, b: seq<byte>, buf: seq<byte>)
    requires |buf| == |b|
    ensures
      var c := Create(s, name);
      var w := WriteAt(c.store, c.file.value, b, 0);
      var rd := ReadAt(w.store, w.file, buf, 0);
      rd.n == Ok(|b|) && rd.buf == b && rd.file.at == |b|
  {
    var c := Create(s, name);
    var w := WriteAt(c.store, c.file.value, b, 0);
    var d := Contents(w.store, name);
    assert |d| == |b|;
    assert d == d[0..|b|];
    var rd := ReadAt(w.store, w.file, buf, 0);
    if |b| > 0 {
      assert rd.n.Ok?;
      assert rd.buf == d[0..|b|] + buf[|b|..];
    }
  }

  /** Writing past the end fills the gap with zeros, which a read then returns. */
  lemma {:induction false} WritePastEndReadsZeros(s: Store, f: File, b: seq<byte>, buf: seq<byte>)
    requires !f.closed && !f.readOnly
    requires |Contents(s, f.name)| < f.at
    requires |buf| == f.at - |Contents(s, f.name)|
    ensures
      var w := Write(s, f, b);
      var rd := ReadAt(w.store, w.file, buf, |Contents(s, f.name)|);
      rd.n == Ok(|buf|) && rd.buf == Zeros(|buf|)
  {
    var len := |Contents(s, f.name)|;
    var w := Write(s, f, b);
    var d := Contents(w.store, f.name);
    assert |d| >= f.at;
    var rd := ReadAt(w.store, w.file, buf, len);
    assert rd.n.Ok?;
    assert rd.buf == d[len..len + |buf|];
  }

  /** Truncating to the current length changes nothing a reader can see. */
  lemma TruncateToLengthKeepsContents(s: Store, f: File)
    requires !f.closed
    ensures
      var t := Truncate(s, f, |Contents(s, f.name)|);
      t.status.Pass? && Contents(t.store, f.name) == Contents(s, f.name)
  {
    var data := Contents(s, f.name);
    assert data[..|data|] == data;
  }

  /** O_APPEND combined with O_TRUNC seeks to the old end before truncating, so
      the handle's position lies beyond the (now empty) contents. */
  lemma AppendTruncLeavesPositionPastEnd(s: Store, name: string)
    requires name in s && |s[name]| > 0
    ensures
      var r := OpenFile(s, name, O_RDWR | O_APPEND | O_TRUNC);
      && r.file.Ok?
      && Contents(r.store, name) == []
      && r.file.value.at == |s[name]| > 0
  {
  }

  // ---------------------------------------------------------------------------
  // Write as it is intended to behave for an io.Writer: it advances the position.

  /** `File.Write` followed by moving the position past the written bytes. */
  function WriteAdvancing(s: Store, f: File, b: seq<byte>): (r: WriteResult)
    ensures r.store == Write(s, f, b).store && r.n == Write(s, f, b).n
    ensures r.n.Ok? ==> r.file == f.(at := f.at + |b|)
    ensures r.n.Err? ==> r.file == f
  {
    var w := Write(s, f, b);
    if w.n.Ok? then w.(file := f.(at := f.at + |b|)) else w
  }

  /** With the advancing write, two consecutive writes lay `b1 + b2` down at the
      starting position. */
  lemma {:induction false} ConsecutiveWritesConcatenate(s: Store, f: File, b1: seq<byte>, b2: seq<byte>)
    requires !f.closed && !f.readOnly && f.at >= 0
    ensures
      var w1 := WriteAdvancing(s, f, b1);
      var w2 := WriteAdvancing(w1.store, w1.file, b2);
      var d := Contents(w2.store, f.name);
      && w2.n == Ok(|b2|)
      && f.at + |b1| + |b2| <= |d|
      && d[f.at..f.at + |b1| + |b2|] == b1 + b2
  {
    var w1 := WriteAdvancing(s, f, b1);
    var d1 := Contents(w1.store, f.name);
    var w2 := WriteAdvancing(w1.store, w1.file, b2);
    var d := Contents(w2.store, f.name);
    var p := f.at;
    var q := p + |b1|;
    assert d1[p..q] == b1;
    assert d[q..q + |b2|] == b2;
    assert Min(q, |d1|) == q;
    assert d[..q] == d1[..q];
    SamePrefixSameSlice(d1, d, p, q);
    assert d[p..q + |b2|] == d[p..q] + d[q..q + |b2|];
  }

  /** Two sequences that agree up to `q` agree on every slice ending there. */
  lemma SamePrefixSameSlice(d1: seq<byte>, d: seq<byte>, p: int, q: int)
    requires 0 <= p <= q <= |d1| && q <= |d| && d[..q] == d1[..q]
    ensures d[p..q] == d1[p..q]
  {
    assert d[p..q] == d[..q][p..];
    assert d1[p..q] == d1[..q][p..];
  }

  /** As written, a second Write on the same handle starts where the first one
      did: writing [1] and then [2] to an empty file leaves [2], not [1, 2]. */
  lemma ConsecutiveWritesOverwrite(name: string)
    ensures
      var f := File(name, 0, false, false);
      var w1 := Write(map[], f, [1]);
      var w2 := Write(w1.store, w1.file, [2]);
      && w2.n == Ok(1)
      && Contents(w2.store, name) == [2]
      && Contents(WriteAdvancing(WriteAdvancing(map[], f, [1]).store, WriteAdvancing(map[], f, [1]).file, [2]).store, name) == [1, 2]
  {
    var f := File(name, 0, false, false);
    var w1 := Write(map[], f, [1]);
    assert Contents(w1.store, name) == [1];
    var a1 := WriteAdvancing(map[], f, [1]);
    var a2 := WriteAdvancing(a1.store, a1.file, [2]);
    assert |Contents(a2.store, name)| == 2;
  }
}
